=== FILE: README.md ===
# codetok, modelled in Dafny

codetok walks a source tree and picks the files whose extension it knows.
For each file it counts total, code, comment and blank lines, tokens and
bytes. It then groups the per-file records into four categories (code,
documentation, configuration, other) and writes a summary report. This
project models the pure core of that pipeline and proves properties of it:

- `Text` (text.dfy): the Python string primitives the tool depends on:
  `str.splitlines`, `str.strip`, `str.lower` and `startswith`.
- `Registry` (registry.dfy): the three extension registries, the lexer
  mapping and `get_all_extensions`.
- `Kinds`, `Heuristic`, `LexerTier`, `LineCount` (kinds.dfy, heuristic.dfy,
  lexer.dfy, linecount.dfy): `count_lines_by_type`. This covers the
  per-line heuristic tier, the walk over the lexer's token stream, and the
  choice between the two.
- `Records` (records.dfy): `FileStats`, `Path.suffix` and `process_file`.
  Reading the file and counting tokens are inputs.
- `Formatters` (formatters.dfy): `CategoryStats`, `categorize_files`, and
  the summary and extension breakdown of the JSON report.
- `Analyzer` (analyzer.dfy): the file selection of `_find_files` over a
  directory tree, the sequential and pool-based `_process_files`, and the
  empty-input early return of `analyze`.
- `Utils` (utils.dfy): `format_number`, `format_size` and
  `should_exclude_directory`.
- `Configuration` (config.dfy): `Config` and the defaulting and validation
  in `__post_init__`.
- `Dict` and `Wrappers` (dict.dfy, wrappers.dfy): helpers. `Dict` is an
  insertion-ordered association list standing for a Python `dict`.
  `Wrappers` holds `Option` and `Result`.

Python `dict`s whose order matters are modelled as ordered sequences of
pairs. These are the `line_types` dict, the result of `categorize_files`
and `ext_breakdown`.

## Model

| member | source | states |
|---|---|---|
| Text.SplitLines | codetok/parser.py:157 | `splitlines()` yields no lines exactly for the empty text, and never more lines than characters |
| Text.SplitLinesNoBreaks | codetok/parser.py:157 | no piece of `splitlines()` contains a line boundary |
| Text.SplitTerminated | codetok/parser.py:157 | splitting a text built from boundary-free lines, each ended by `\n`, gives back exactly those lines |
| Text.SplitUnterminated | codetok/parser.py:157 | the same text followed by a last line without a final newline splits into those lines plus the last one |
| Text.SplitUnbroken | codetok/parser.py:157 | a non-empty text with no boundary is one line |
| Text.SplitAtBoundary | codetok/parser.py:157 | the first line ends at any of the ten boundary characters or at `\r\n`, which counts as one boundary; a lone `\r` ends a line when no `\n` follows it |
| Text.StripEmptyIffAllSpace | codetok/parser.py:174-175 | a stripped line is empty exactly when the line is all whitespace, which is the blank test of both tiers |
| Text.TrimLeftShape | codetok/parser.py:226 | stripping on the left removes exactly the longest whitespace prefix |
| Text.TrimRightShape | codetok/parser.py:226 | stripping on the right removes exactly the longest whitespace suffix |
| Text.LowerCases | codetok/parser.py:282 | after lowercasing no ASCII capital is left, each capital becomes the letter 32 code points on, every other character is kept, and lowercasing twice is lowercasing once |
| Registry.AllExtensionsUnion | codetok/parser.py:324-334 | `get_all_extensions()` is exactly the union of the three category registries, and its size is the sum of theirs |
| Registry.RegistriesDisjoint | codetok/parser.py:62-107 | the code, documentation and configuration registries share no extension |
| Registry.LexerKeysAreCode | codetok/parser.py:112-136 | the extensions with a lexer are exactly the code extensions |
| Registry.RegistrySizes | codetok/parser.py:88-107 | five documentation and nine configuration extensions, more than ten in all |
| Registry.EmptyExtensionUnregistered | codetok/parser.py:324-334 | the empty suffix of a file without an extension is not a registered extension |
| Registry.DisplayNamesNonEmpty | codetok/parser.py:62-107 | no registry gives an empty display name |
| Kinds.TallyCountsOccurrences | codetok/parser.py:184-190 | each counter of the tally loop is the number of lines of its kind |
| Kinds.TallyAppend | codetok/parser.py:225-252 | tallies of concatenated kind sequences add up |
| Heuristic.StartsCommentIffPrefix | codetok/parser.py:233-246 | the four ordered comment tests hold exactly when the stripped line starts with one of the extension's comment prefixes |
| Heuristic.ClassifyLineRules | codetok/parser.py:225-252 | a line is blank iff all whitespace, a comment iff non-blank and starting with one of the extension's prefixes, code iff neither |
| Heuristic.NoCommentsWithoutPrefixes | codetok/parser.py:247-252 | documentation files and unregistered extensions have no comment prefix, so the heuristic tier never reports a comment line for them |
| Heuristic.HeuristicSumIsLineCount | codetok/parser.py:225-254 | every line raises exactly one counter, so code + comment + blank is the number of lines |
| Heuristic.HeuristicAdditive | codetok/parser.py:225-252 | the heuristic tier keeps no state: counts over concatenated line lists are the sums of the separate counts |
| Heuristic.BlockCommentInteriorIsCode | codetok/parser.py:244-252 | in a stylesheet, only the opening line of a `/* ... */` block is a comment; non-blank interior lines that do not start with `/*` count as code |
| LexerTier.WalkRecordsSlots | codetok/parser.py:168-181 | the walk numbers one slot per `splitlines()` piece of every token, from line 1 on, and never assigns a line number twice; the recorded kinds are exactly the slots, in order |
| LexerTier.WalkTokensAppends | codetok/parser.py:171-181 | from a dict whose keys all lie below the current line, the outer loop appends every token's slots, numbered consecutively |
| LexerTier.WalkPiecesAppends | codetok/parser.py:172-181 | the inner loop appends one fresh, consecutively numbered entry per piece of the token |
| LexerTier.LexerCountsShape | codetok/parser.py:183-195 | code and comment are the numbers of code and comment slots; blank is `max(0, lines - code - comment)`; the three add up to `max(lines, code + comment)` |
| LexerTier.LexerCountsTokensOnOneLine | codetok/parser.py:157-195 | take a one-line file whose stripped text is one or more non-blank, non-comment tokens without a line break. The file is one `splitlines()` line. With the final `\n` token the lexer appends, or without it, the lexer tier reports one code line per token and no blank line, so two or more tokens report more code lines than the file has |
| LineCount.CountLinesTiers | codetok/parser.py:140-254 | the lexer tier answers only for an extension with a lexer and a token stream; the heuristic tier's counts add up to the line count exactly; either tier's counts add up to at least the line count |
| LineCount.NoLexerNoDependence | codetok/parser.py:162-202 | for an extension without a lexer the counts do not depend on whether the lexer is present, absent or raising |
| LineCount.MarkdownExample | tests/test_parser.py:45-59 | the test suite's markdown file (two headers, two text lines, two blank lines, each ended by a newline) counts as 4 code, 0 comment and 2 blank lines, whatever the lexer gives |
| LineCount.UnknownExtensionExample | tests/test_parser.py:61-73 | the test suite's file with an unregistered extension (three text lines and one blank one) counts as 3 code, 0 comment and 1 blank line, whatever the lexer gives |
| LineCount.EmptyContentCounts | codetok/parser.py:157-231 | empty content has no lines; no tier reports a blank line for it; the heuristic tier reports nothing at all |
| Records.Suffix | codetok/parser.py:282 | the suffix is empty, or a dot followed by dot-free characters that end the file name and are shorter than it |
| Records.SuffixOfName | codetok/parser.py:282 | a name `stem.ext` with a non-empty stem and a non-empty, dot-free `ext` has suffix `.ext` in any directory |
| Records.DotfileHasNoSuffix | codetok/parser.py:282 | a name whose only dot is its first character, such as `.gitignore`, has no suffix |
| Records.ProcessFile | codetok/parser.py:257-321 | the record carries its path and the lowercased suffix; `lines_total` is the number of `splitlines()` pieces, the code, comment and blank counts are those of `count_lines_by_type` on the content, the token count defaults to 0, and the size is the size read; an OS error gives an all-zero record with the same extension |
| Records.ProcessFileCoversLines | codetok/parser.py:283-286 | the record's three line counts add up to at least `lines_total`, and to exactly that when the heuristic tier counted them |
| Records.ExtensionLowerCase | codetok/parser.py:282 | the extension in the record holds no ASCII capital |
| Records.TokensDefaultToZero | codetok/parser.py:288-294 | a missing or failing tokenizer gives 0 tokens and changes no other field |
| Formatters.CategoryOfRegistered | codetok/formatters.py:57-65 | a record lands in code, documentation or configuration exactly when its extension is in that registry, and in other exactly when it is in none |
| Formatters.CategorizeFiles | codetok/formatters.py:50-72 | the one-pass loop returns the four keys `code`, `documentation`, `config`, `other` in that order, each with the statistics of exactly its records |
| Formatters.CategoriesPartition | codetok/formatters.py:57-65 | the four category lists together are a rearrangement of the input: every record lands in exactly one category |
| Formatters.CategoryCountsAddUp | codetok/formatters.py:57-72 | the categories' `total_files` add up to the number of records |
| Formatters.CategoryKeepsOrder | codetok/formatters.py:57-65 | each category's records are the input's records at strictly increasing positions, so their input order is kept |
| Formatters.CategoryTotalsSplit | codetok/formatters.py:33-39 | the totals are additive: the stats of two runs of files put together are the sums of the stats of each, `total_files` included |
| Formatters.AveragesMeaning | codetok/formatters.py:41-47 | both averages are 0 without files; otherwise the average times the file count is the total |
| Formatters.SumFieldAppend | codetok/formatters.py:34-39 | field sums add up over concatenated record lists |
| Formatters.SummaryFileCount | codetok/formatters.py:88-89 | the summary's `total_files` over the four categories is the number of records |
| Formatters.SummaryFieldTotal | codetok/formatters.py:88-100 | every summary total is the sum of that field over all records |
| Formatters.SumPartition | codetok/formatters.py:57-100 | the field sums of the four categories add up to the field sum of the input |
| Formatters.SummaryOfCategories | codetok/formatters.py:88-100 | each summary total is the sum of the four category totals |
| Formatters.DisplayNameFirstHit | codetok/formatters.py:109-114 | the display name is the name from the registry holding the extension, or the extension itself when none does |
| Formatters.BreakdownSums | codetok/formatters.py:106-126 | the breakdown's files, lines, tokens and sizes add up to the number of files and the sums of their lines, tokens and sizes |
| Formatters.BreakdownMatchesCategory | codetok/formatters.py:106-136 | per category, the breakdown adds up to the category's `total_files`, `total_lines`, `total_tokens` and `total_size_bytes` |
| Formatters.BreakdownKeys | codetok/formatters.py:106-122 | the breakdown has an entry for an extension exactly when some file of the category has it |
| Formatters.BreakdownNames | codetok/formatters.py:109-122 | each breakdown entry is named by the display name of its extension |
| Formatters.BreakdownEntry | codetok/formatters.py:106-126 | the entry of an extension is absent when no file has it, and otherwise holds the number of files with that extension and the sums of their lines, tokens and sizes |
| Formatters.EntrySumPut | codetok/formatters.py:115-126 | updating one entry changes the sums by the new entry's counts minus the old one's |
| Formatters.AddFileSums | codetok/formatters.py:107-126 | one iteration of the breakdown loop adds the file's counts to the sums |
| Dict.PutGetKeys | codetok/formatters.py:115-126 | after `d[k] = v` the key maps to `v`, and a new key joins the keys at the end |
| Dict.PutOthers | codetok/formatters.py:115-126 | `d[k] = v` leaves every other key's value alone |
| Analyzer.SelectFiles | codetok/analyzer.py:142-166 | the paths kept from one directory are exactly those of its file names that pass the per-file test, as full paths, in listing order |
| Analyzer.SelectFilesAccepted | codetok/analyzer.py:142-166 | in a directory that is not excluded, the files kept are exactly those of its file names that pass the per-file test, in listing order |
| Analyzer.WalkSelectsCandidates | codetok/analyzer.py:132-168 | the pruning walk returns exactly the files of the tree that meet the selection rule, in walk order: skipping an excluded directory's subtree loses nothing |
| Analyzer.NothingAcceptedBelow | codetok/analyzer.py:136-140 | below a directory whose full path has an excluded component, no file meets the rule |
| Analyzer.AcceptedMeetsRule | codetok/analyzer.py:142-166 | each returned path is the full path of a file that meets the rule |
| Analyzer.SelectedFileProperties | codetok/analyzer.py:136-166 | a selected file has a registered lowercased suffix that passes the include filter, no gitignore or exclude-pattern match, and a directory that is not excluded |
| Analyzer.FoundFilesRegistered | codetok/analyzer.py:119-166 | every path `_find_files` returns has a registered extension, and nothing is found when the analysis root itself is excluded |
| Analyzer.IncludeRestricts | codetok/analyzer.py:152-156 | a non-empty include set admits exactly its own extensions |
| Analyzer.ProcessSequential | codetok/analyzer.py:211-227 | one record per path, in input order |
| Analyzer.ProcessParallel | codetok/analyzer.py:184-210 | whatever order the pool completes the jobs in, the results come back one per path, in submission order |
| Analyzer.ProcessPathRecord | codetok/parser.py:299-301 | the record made for a path is about that path and carries its lowercased suffix |
| Analyzer.AnalyzeCounts | codetok/analyzer.py:68-87 | `analyze` returns the empty mapping exactly when no file is selected; otherwise the summary's file total is the number of selected files |
| Analyzer.OtherAlwaysEmpty | codetok/analyzer.py:165-166 | the "other" category of an analysis is always empty, since only registered extensions are selected |
| Utils.ExcludeByComponent | codetok/utils.py:24-26 | a directory is excluded exactly when one of its path components is in the exclude set |
| Utils.NoExclusionsExcludeNothing | codetok/utils.py:24-26 | an empty exclude set excludes nothing |
| Utils.ExcludeMonotoneInNames | codetok/utils.py:24-26 | a larger exclude set never lets a path back in |
| Utils.ExcludeInherited | codetok/utils.py:24-26 | every directory below an excluded one is excluded |
| Utils.FormatNumberRoundTrip | codetok/utils.py:7-9 | reading the grouped text back, without its commas, gives the number |
| Utils.GroupRemoveCommas | codetok/utils.py:7-9 | grouping only inserts commas: removing them gives the digits back |
| Utils.GroupCommaPositions | codetok/utils.py:7-9 | commas sit exactly at the positions a multiple of four from the end, and every other character is a digit |
| Utils.SmallNumbersUngrouped | codetok/utils.py:7-9 | numbers below a thousand are printed without a comma |
| Utils.ReadDecimalOfDecimal | codetok/utils.py:7-15 | the decimal form of a number reads back as the number |
| Utils.UnitMonotone | codetok/utils.py:14-21 | a larger size never gets a smaller unit |
| Utils.UnitRange | codetok/utils.py:14-21 | the unit is the largest whose scale does not exceed the size, so below GB the scaled size lies in [1, 1024) |
| Utils.TenthsNearest | codetok/utils.py:17-21 | the one-decimal value is within half a tenth of the exact quotient |
| Utils.FormatSizeReads | codetok/utils.py:12-21 | below 1024 bytes the text is the decimal byte count followed by ` B`; otherwise it ends in the chosen unit's name |
| Utils.RoundsUpWithinUnit | codetok/utils.py:16-17 | a size just below 1 MB prints as 1024.0 KB, because rounding happens after the unit is chosen |
| Configuration.DefaultWorkers | codetok/config.py:61-62 | the default worker count always lies in [5, 32] |
| Configuration.PostInit | codetok/config.py:59-77 | validation succeeds exactly when the worker count is absent or at least 1 and the path exists; a bad worker count is reported before a missing path; on success both defaulted fields are filled |
| Configuration.PostInitFields | codetok/config.py:61-71 | an explicit worker count and exclude set are kept, absent ones become the defaults, and no other field changes |
| Configuration.PostInitIdempotent | codetok/config.py:59-77 | validating an accepted configuration again changes nothing |
| Configuration.DefaultWorkersByCpu | codetok/config.py:61-62 | the default is the processor count plus 4 up to 28 processors, and 32 from there on; an unknown or zero count reads as 1 |
| Configuration.DefaultExcludeDirsContents | codetok/config.py:64-71 | the default exclude set holds `node_modules`, `.git`, `__pycache__` and `.venv`, and not `src` |
| Configuration.DefaultConfigValid | codetok/config.py:18-77 | a default configuration validates exactly when its path exists, with the default worker count |

## Left out

- Pygments lexing is a foreign library. Its token stream, reduced to
  (is a comment token, text) pairs, is an input. `None` stands for "library
  missing or lexing raised". Concrete lexer-tier counts therefore cannot be
  checked.
- The lexer is built with `stripall`, and `ensurenl` is on by default.
  Its token texts are therefore the content with `\r\n` and `\r` turned
  into `\n`, surrounding whitespace stripped and a final `\n` appended.
  The model takes the token stream as given and does not derive it from
  the content. Only `LexerTier.LexerCountsTokensOnOneLine` relates the two,
  for one-line files.
- tiktoken encoding is a foreign library. The token count is an input, and
  `None` stands for "tokenizer missing or raising".
- File reading with the encoding fallback, and `stat()`, are I/O. Their
  outcome (content, size, or an OS error) is an input.
- `os.walk` is a tree (`Analyzer.Tree`). The tree is finite and has no
  symlink cycles.
- `.gitignore` loading and `pathspec` matching are a predicate on relative
  paths. `fnmatch` is a predicate on (name, pattern). Both are uninterpreted.
- The `respect_gitignore` flag is carried but never consulted, as in
  `_find_files`.
- `ThreadPoolExecutor` and tqdm: concurrency and progress output. The pool
  is a completion order over the submitted jobs, and only the resulting
  list is modelled.
- Logging in `analyze` is output and is left out. So are `ConsoleFormatter`,
  `ChartFormatter`, the JSON timestamp, `json.dump` and the per-file
  `files` list of the report.
- `codetok/ui.py`, `codetok/cli.py` and `codetok/__init__.py` are
  printing, argument parsing and re-exports.
- Formatters.AveragesMeaning: the averages are exact reals, not floats. Only
  the zero rule and "average times files equals total" are stated.
- Utils.FormatSizeReads: the decimal digits of the KB/MB/GB forms are not
  spelled out. The rounded value is stated through `Utils.TenthsNearest`,
  with ties to even on the exact quotient. This matches Python for sizes
  whose quotient is exact in a double (below 2^53 bytes times the scale).
- Utils.FormatSize takes a natural number. Negative sizes, which the source
  would print as `-n B`, are not modelled.
- Unicode:
  - `str.splitlines` uses Python's full set of line boundaries.
  - `str.strip` uses the characters `str.isspace` accepts.
  - `str.lower` is ASCII only. Non-ASCII capitals in an extension stay
    unchanged.
- Text.SplitLines: its own contract states only when the result is empty
  and that there are never more lines than characters. What the lines are
  is stated by `Text.SplitAtBoundary`, `Text.SplitTerminated`,
  `Text.SplitUnterminated` and `Text.SplitLinesNoBreaks`.
- LineCount.EmptyContentCounts: for the lexer tier it states only that no
  blank line is reported. The code and comment counts then depend on the
  token stream.
- Configuration.DefaultExcludeDirsContents: only membership is stated. The
  set's size (33 names) is not proved.
- Formatters.SummaryFieldTotal: the summary is related to the records one
  field at a time, not as a single equation over the `Summary` record.
- `Path.suffix` follows the rule that the last dot must be neither the
  first nor the last character of the name. Under it `.gitignore` has no
  suffix, so the registered `.gitignore` and `.env` extensions never match
  a file of that exact name.
- `should_exclude_directory` is applied to the full walked path, base
  included, as in the source. An analysis root under an excluded name
  (such as a path through `tmp`) therefore finds nothing. This is stated in
  `Analyzer.FoundFilesRegistered`.

=== FILE: analyzer.dfy ===
/** `CodeAnalyzer` of `codetok/analyzer.py`: the file selection of
    `_find_files`, the processing map of `_process_files` and the pipeline of
    `analyze`. The directory walk is over a tree given as a value; the
    `.gitignore` matcher, `fnmatch` and reading a file are parameters. */
module Analyzer {
  import opened Wrappers
  import opened Text
  import opened Records
  import opened LexerTier
  import opened Configuration
  import Registry
  import Utils
  import Formatters

  // ---------------------------------------------------------------------
  // The directory tree and the walk

  /** A directory as `os.walk` lists it: its name, the names of its files and
      its subdirectories, in listing order. */
  datatype Tree = Tree(name: string, files: seq<string>, children: seq<Tree>)

  /** What `_find_files` consults besides the tree: the configuration, the
      `.gitignore` matcher on a path relative to the base (constantly false
      when there is no `.gitignore`) and `fnmatch.fnmatch(name, pattern)`. */
  datatype Context = Context(
    config: Config,
    ignored: Path -> bool,
    fnmatch: (string, string) -> bool)

  /** `self.config.exclude_dirs or set()`. */
  function ExcludedNames(c: Config): (r: set<string>) {
    if c.excludeDirs.Some? then c.excludeDirs.value else {}
  }

  /** The extension filter: a `None` or empty include set lets every
      extension through. */
  predicate PassesInclude(c: Config, ext: string) {
    c.includeExtensions.None? || c.includeExtensions.value == {} || ext in c.includeExtensions.value
  }

  /** `any(fnmatch.fnmatch(file, pattern) for pattern in patterns)`. */
  predicate MatchesAny(fnmatch: (string, string) -> bool, name: string, patterns: seq<string>) {
    exists i :: 0 <= i < |patterns| && fnmatch(name, patterns[i])
  }

  /** The per-file test of `_find_files`, for the file `name` in the directory
      at `rel` below the base: not ignored, through the extension filter, no
      exclude pattern matching its name, and a registered extension. */
  predicate KeepFile(ctx: Context, rel: Path, name: string) {
    var ext := Lower(Suffix(rel + [name]));
    !ctx.ignored(rel + [name])
    && PassesInclude(ctx.config, ext)
    && !(ctx.config.excludePatterns.Some? && MatchesAny(ctx.fnmatch, name, ctx.config.excludePatterns.value))
    && ext in Registry.AllExtensions()
  }

  /** The files of one directory that pass the per-file test, as full paths. */
  function SelectFiles(ctx: Context, base: Path, rel: Path, names: seq<string>): (r: seq<Path>)
    ensures |r| <= |names|
    ensures r == Accepted((c: (Path, string)) => KeepFile(ctx, c.0, c.1), base, Here(rel, names))
  {
    if |names| == 0 then []
    else
      var rest := SelectFiles(ctx, base, rel, names[1..]);
      if KeepFile(ctx, rel, names[0]) then [base + rel + [names[0]]] + rest else rest
  }

  /** `_find_files` from the directory `t` at `rel` below `base`: a
      directory whose full path has an excluded component is skipped with
      everything below it; otherwise its selected files come first, then
      those of each subdirectory in turn. */
  function WalkTree(ctx: Context, base: Path, rel: Path, t: Tree): (r: seq<Path>)
    decreases t, 1
  {
    if Utils.ShouldExcludeDirectory(base + rel, ExcludedNames(ctx.config)) then []
    else SelectFiles(ctx, base, rel, t.files) + WalkForest(ctx, base, rel, t.children)
  }

  function WalkForest(ctx: Context, base: Path, rel: Path, ts: seq<Tree>): (r: seq<Path>)
    decreases ts, 0
  {
    if |ts| == 0 then []
    else WalkTree(ctx, base, rel + [ts[0].name], ts[0]) + WalkForest(ctx, base, rel, ts[1..])
  }

  /** `_find_files()`: the walk from the analysis root. */
  function FindFiles(ctx: Context, base: Path, root: Tree): (r: seq<Path>) {
    WalkTree(ctx, base, [], root)
  }

  // ---------------------------------------------------------------------
  // The reference: every file of the tree, then a filter

  /** Every file of the tree as `(directory below the base, name)`, in walk
      order, with no directory skipped. */
  function Candidates(rel: Path, t: Tree): (r: seq<(Path, string)>)
    decreases t, 1
  {
    Here(rel, t.files) + CandidatesIn(rel, t.children)
  }

  function CandidatesIn(rel: Path, ts: seq<Tree>): (r: seq<(Path, string)>)
    decreases ts, 0
  {
    if |ts| == 0 then [] else Candidates(rel + [ts[0].name], ts[0]) + CandidatesIn(rel, ts[1..])
  }

  function Here(rel: Path, names: seq<string>): (r: seq<(Path, string)>)
    ensures |r| == |names|
    ensures forall i :: 0 <= i < |r| ==> r[i] == (rel, names[i])
  {
    if |names| == 0 then [] else [(rel, names[0])] + Here(rel, names[1..])
  }

  /** The whole selection rule for one file: its directory is not excluded
      and the file passes the per-file test. */
  predicate Selected(ctx: Context, base: Path, c: (Path, string)) {
    !Utils.ShouldExcludeDirectory(base + c.0, ExcludedNames(ctx.config)) && KeepFile(ctx, c.0, c.1)
  }

  /** The selection rule as a test on candidates. */
  function Rule(ctx: Context, base: Path): (rule: ((Path, string)) -> bool) {
    c => Selected(ctx, base, c)
  }

  /** The candidates that pass `keep`, as full paths, in order. */
  function Accepted(keep: ((Path, string)) -> bool, base: Path, cs: seq<(Path, string)>): (r: seq<Path>) {
    if |cs| == 0 then []
    else
      var rest := Accepted(keep, base, cs[1..]);
      if keep(cs[0]) then [base + cs[0].0 + [cs[0].1]] + rest else rest
  }

  lemma {:induction false} AcceptedAppend(keep: ((Path, string)) -> bool, base: Path, a: seq<(Path, string)>, b: seq<(Path, string)>)
    ensures Accepted(keep, base, a + b) == Accepted(keep, base, a) + Accepted(keep, base, b)
  {
    if |a| != 0 {
      assert (a + b)[1..] == a[1..] + b;
      AcceptedAppend(keep, base, a[1..], b);
    } else {
      assert a + b == b;
    }
  }

  /** Every candidate below `rel` lies in a directory that extends `rel`. */
  lemma {:induction false} CandidatesBelow(rel: Path, t: Tree)
    ensures forall i :: 0 <= i < |Candidates(rel, t)| ==> rel <= Candidates(rel, t)[i].0
    decreases t, 1
  {
    CandidatesInBelow(rel, t.children);
    var h := Here(rel, t.files);
    var r := CandidatesIn(rel, t.children);
    assert Candidates(rel, t) == h + r;
  }

  lemma {:induction false} CandidatesInBelow(rel: Path, ts: seq<Tree>)
    ensures forall i :: 0 <= i < |CandidatesIn(rel, ts)| ==> rel <= CandidatesIn(rel, ts)[i].0
    decreases ts, 0
  {
    if |ts| != 0 {
      CandidatesBelow(rel + [ts[0].name], ts[0]);
      CandidatesInBelow(rel, ts[1..]);
      var a := Candidates(rel + [ts[0].name], ts[0]);
      var b := CandidatesIn(rel, ts[1..]);
      assert CandidatesIn(rel, ts) == a + b;
      forall i | 0 <= i < |a|
        ensures rel <= a[i].0
      {
        assert rel <= rel + [ts[0].name] <= a[i].0;
      }
    }
  }

  /** Under an excluded directory nothing is selected. */
  lemma {:induction false} NothingAcceptedBelow(ctx: Context, base: Path, rel: Path, cs: seq<(Path, string)>)
    requires Utils.ShouldExcludeDirectory(base + rel, ExcludedNames(ctx.config))
    requires forall i :: 0 <= i < |cs| ==> rel <= cs[i].0
    ensures Accepted(Rule(ctx, base), base, cs) == []
  {
    if |cs| != 0 {
      var below := cs[0].0[|rel|..];
      assert cs[0].0 == rel + below;
      assert base + cs[0].0 == (base + rel) + below;
      Utils.ExcludeInherited(base + rel, below, ExcludedNames(ctx.config));
      NothingAcceptedBelow(ctx, base, rel, cs[1..]);
    }
  }

  /** Within one directory that is not excluded, the per-file test is the
      whole rule. */
  lemma {:induction false} SelectFilesAccepted(ctx: Context, base: Path, rel: Path, names: seq<string>)
    requires !Utils.ShouldExcludeDirectory(base + rel, ExcludedNames(ctx.config))
    ensures SelectFiles(ctx, base, rel, names) == Accepted(Rule(ctx, base), base, Here(rel, names))
  {
    if |names| != 0 {
      SelectFilesAccepted(ctx, base, rel, names[1..]);
      assert Here(rel, names)[1..] == Here(rel, names[1..]);
    }
  }

  /** Skipping an excluded directory's subtree (`dirs.clear()`) loses nothing:
      the walk selects exactly the files of the whole tree that meet the
      selection rule, in walk order. */
  lemma {:induction false} WalkSelectsCandidates(ctx: Context, base: Path, rel: Path, t: Tree)
    ensures WalkTree(ctx, base, rel, t) == Accepted(Rule(ctx, base), base, Candidates(rel, t))
    decreases t, 1
  {
    var h := Here(rel, t.files);
    var r := CandidatesIn(rel, t.children);
    AcceptedAppend(Rule(ctx, base), base, h, r);
    if Utils.ShouldExcludeDirectory(base + rel, ExcludedNames(ctx.config)) {
      CandidatesBelow(rel, t);
      NothingAcceptedBelow(ctx, base, rel, Candidates(rel, t));
    } else {
      SelectFilesAccepted(ctx, base, rel, t.files);
      WalkForestSelectsCandidates(ctx, base, rel, t.children);
    }
  }

  lemma {:induction false} WalkForestSelectsCandidates(ctx: Context, base: Path, rel: Path, ts: seq<Tree>)
    ensures WalkForest(ctx, base, rel, ts) == Accepted(Rule(ctx, base), base, CandidatesIn(rel, ts))
    decreases ts, 0
  {
    if |ts| != 0 {
      WalkSelectsCandidates(ctx, base, rel + [ts[0].name], ts[0]);
      WalkForestSelectsCandidates(ctx, base, rel, ts[1..]);
      AcceptedAppend(Rule(ctx, base), base, Candidates(rel + [ts[0].name], ts[0]), CandidatesIn(rel, ts[1..]));
    }
  }

  /** Each accepted path is the full path of a candidate that meets the
      selection rule. */
  lemma {:induction false} AcceptedMeetsRule(ctx: Context, base: Path, cs: seq<(Path, string)>, p: Path)
    requires p in Accepted(Rule(ctx, base), base, cs)
    ensures exists i :: 0 <= i < |cs| && Selected(ctx, base, cs[i]) && p == base + cs[i].0 + [cs[i].1]
  {
    var c := cs[0];
    if !(Selected(ctx, base, c) && p == base + c.0 + [c.1]) {
      AcceptedMeetsRule(ctx, base, cs[1..], p);
      var i :| 0 <= i < |cs[1..]| && Selected(ctx, base, cs[1..][i]) && p == base + cs[1..][i].0 + [cs[1..][i].1];
      assert cs[i + 1] == cs[1..][i];
    }
  }

  /** A selected file, read from its full path: its lowercased suffix is a
      registered extension that passes the include filter, and neither the
      `.gitignore` matcher nor an exclude pattern matches it. */
  lemma SelectedFileProperties(ctx: Context, base: Path, c: (Path, string))
    requires Selected(ctx, base, c)
    ensures var p := base + c.0 + [c.1]; var ext := Lower(Suffix(p));
      ext in Registry.AllExtensions()
      && PassesInclude(ctx.config, ext)
      && !ctx.ignored(c.0 + [c.1])
      && !(ctx.config.excludePatterns.Some? && MatchesAny(ctx.fnmatch, c.1, ctx.config.excludePatterns.value))
      && !Utils.ShouldExcludeDirectory(base + c.0, ExcludedNames(ctx.config))
  {
    SameSuffix(base + c.0, c.0, c.1);
  }

  /** The suffix depends only on the last component. */
  lemma SameSuffix(a: Path, b: Path, name: string)
    ensures Suffix(a + [name]) == Suffix(b + [name])
  {
    assert Name(a + [name]) == name == Name(b + [name]);
  }

  /** Every path `_find_files` returns has a registered extension. */
  lemma {:induction false} FoundFilesRegistered(ctx: Context, base: Path, root: Tree, p: Path)
    requires p in FindFiles(ctx, base, root)
    ensures Lower(Suffix(p)) in Registry.AllExtensions()
    ensures !Utils.ShouldExcludeDirectory(base, ExcludedNames(ctx.config))
  {
    WalkSelectsCandidates(ctx, base, [], root);
    AcceptedMeetsRule(ctx, base, Candidates([], root), p);
    var i :| 0 <= i < |Candidates([], root)| && Selected(ctx, base, Candidates([], root)[i])
      && p == base + Candidates([], root)[i].0 + [Candidates([], root)[i].1];
    SelectedFileProperties(ctx, base, Candidates([], root)[i]);
    assert base + [] == base;
  }

  /** A non-empty include set admits only its own extensions. */
  lemma IncludeRestricts(c: Config, ext: string)
    requires c.includeExtensions.Some? && c.includeExtensions.value != {}
    ensures PassesInclude(c, ext) <==> ext in c.includeExtensions.value
  {
  }

  // ---------------------------------------------------------------------
  // _process_files

  /** `process_file` over one path, with the file's read outcome and lexer
      output looked up by path. */
  function ProcessPath(read: Path -> FileRead, lexed: Path -> Option<seq<LexToken>>, p: Path): (r: FileStats) {
    ProcessFile(p, read(p), lexed(p))
  }

  /** The sequential branch: one record per path, appended in input order.
      `process` is `process_file`; in the report it is `ProcessPath`. */
  method ProcessSequential(files: seq<Path>, process: Path -> FileStats) returns (stats: seq<FileStats>)
    ensures |stats| == |files|
    ensures forall i :: 0 <= i < |files| ==> stats[i] == process(files[i])
  {
    stats := [];
    for i := 0 to |files|
      invariant |stats| == i
      invariant forall j :: 0 <= j < i ==> stats[j] == process(files[j])
    {
      stats := stats + [process(files[i])];
    }
  }

  /** The parallel branches: the pool finishes the submitted jobs in some
      order, `completion`, which names every job; each result is kept with
      its future, and the futures (or `executor.map`) are read back in
      submission order. */
  method ProcessParallel(files: seq<Path>, process: Path -> FileStats, completion: seq<nat>)
    returns (stats: seq<FileStats>)
    requires forall k :: 0 <= k < |completion| ==> completion[k] < |files|
    requires forall j :: 0 <= j < |files| ==> j in completion
    ensures |stats| == |files|
    ensures forall i :: 0 <= i < |files| ==> stats[i] == process(files[i])
  {
    var n := |files|;
    var done: seq<Option<FileStats>> := seq(n, _ => None);
    for k := 0 to |completion|
      invariant |done| == n
      invariant forall j :: 0 <= j < n ==> (done[j].Some? <==> j in completion[..k])
      invariant forall j :: 0 <= j < n && done[j].Some? ==> done[j].value == process(files[j])
    {
      var j := completion[k];
      assert completion[..k + 1] == completion[..k] + [j];
      done := done[j := Some(process(files[j]))];
    }
    assert completion[..|completion|] == completion;
    stats := [];
    for i := 0 to n
      invariant |stats| == i
      invariant forall j :: 0 <= j < i ==> stats[j] == process(files[j])
    {
      stats := stats + [done[i].value];
    }
  }

  /** The record for each path is about that path and carries its lowercased
      suffix. */
  lemma ProcessPathRecord(read: Path -> FileRead, lexed: Path -> Option<seq<LexToken>>, p: Path)
    ensures ProcessPath(read, lexed, p).path == p
    ensures ProcessPath(read, lexed, p).extension == Lower(Suffix(p))
  {
  }

  // ---------------------------------------------------------------------
  // analyze

  /** `analyze()`: no selected file gives the empty mapping and no
      categorisation; otherwise the processed records, categorised. */
  function Analyze(ctx: Context, base: Path, root: Tree, read: Path -> FileRead,
                   lexed: Path -> Option<seq<LexToken>>): (r: seq<(string, Formatters.CategoryStats)>)
    ensures |r| == 0 || |r| == 4
  {
    var files := FindFiles(ctx, base, root);
    if |files| == 0 then []
    else Formatters.Categories(seq(|files|, i requires 0 <= i < |files| => ProcessPath(read, lexed, files[i])))
  }

  /** The mapping is empty exactly when no file is selected; otherwise its
      file total is the number of selected files. */
  lemma AnalyzeCounts(ctx: Context, base: Path, root: Tree, read: Path -> FileRead,
                      lexed: Path -> Option<seq<LexToken>>)
    ensures var r := Analyze(ctx, base, root, read, lexed);
      (r == [] <==> FindFiles(ctx, base, root) == [])
      && (r != [] ==> Formatters.ReportSummary(r).totalFiles == |FindFiles(ctx, base, root)|)
  {
    var files := FindFiles(ctx, base, root);
    if |files| != 0 {
      var stats := seq(|files|, i requires 0 <= i < |files| => ProcessPath(read, lexed, files[i]));
      Formatters.SummaryFileCount(stats, Formatters.CategoryOf);
    }
  }

  /** As only registered extensions are selected, the "other" category of
      an analysis is always empty. */
  lemma {:induction false} OtherAlwaysEmpty(ctx: Context, base: Path, root: Tree, read: Path -> FileRead,
                         lexed: Path -> Option<seq<LexToken>>)
    ensures var r := Analyze(ctx, base, root, read, lexed);
      r != [] ==> r[3].0 == "other" && r[3].1.files == []
  {
    var files := FindFiles(ctx, base, root);
    if |files| != 0 {
      var stats := seq(|files|, i requires 0 <= i < |files| => ProcessPath(read, lexed, files[i]));
      forall i | 0 <= i < |stats|
        ensures Formatters.CategoryOf(stats[i].extension) != Formatters.OtherFiles
      {
        FoundFileNotOther(ctx, base, root, read, lexed, files[i]);
      }
      OtherEntryEmpty(stats);
    }
  }

  lemma OtherEntryEmpty(stats: seq<FileStats>)
    requires forall i :: 0 <= i < |stats| ==> Formatters.CategoryOf(stats[i].extension) != Formatters.OtherFiles
    ensures Formatters.Categories(stats)[3].0 == "other" && Formatters.Categories(stats)[3].1.files == []
  {
    NoneInOther(stats, Formatters.CategoryOf);
  }

  lemma FoundFileNotOther(ctx: Context, base: Path, root: Tree, read: Path -> FileRead,
                          lexed: Path -> Option<seq<LexToken>>, p: Path)
    requires p in FindFiles(ctx, base, root)
    ensures Formatters.CategoryOf(ProcessPath(read, lexed, p).extension) != Formatters.OtherFiles
  {
    FoundFilesRegistered(ctx, base, root, p);
    Formatters.CategoryOfRegistered(ProcessPath(read, lexed, p).extension);
  }

  lemma {:induction false} NoneInOther(stats: seq<FileStats>, cat: string -> Formatters.Category)
    requires forall i :: 0 <= i < |stats| ==> cat(stats[i].extension) != Formatters.OtherFiles
    ensures Formatters.FilesIn(stats, cat, Formatters.OtherFiles) == []
  {
    if |stats| != 0 {
      NoneInOther(stats[..|stats| - 1], cat);
    }
  }
}

=== FILE: config.dfy ===
/** `Config` of `codetok/config.py` and the defaulting and validation of
    its `__post_init__`. The processor count and whether the analysis path
    exists are asked of the operating system there; here they are
    parameters. */
module Configuration {
  import opened Wrappers

  /** The configuration record. `None` stands for Python's `None`. */
  datatype Config = Config(
    path: string,
    outputFile: string,
    jsonOnly: bool,
    excludeDirs: Option<set<string>>,
    includeExtensions: Option<set<string>>,
    excludePatterns: Option<seq<string>>,
    respectGitignore: bool,
    parallel: bool,
    progressBar: bool,
    maxWorkers: Option<int>,
    generateCharts: bool)

  /** The directories skipped unless the caller names others. */
  const DefaultExcludeDirs: set<string> := {
    ".next", "node_modules", ".git", "__pycache__", "dist", "build",
    ".turbo", "out", ".venv", "venv", ".env", "env", ".pytest_cache",
    ".mypy_cache", ".tox", "coverage", ".coverage", ".nyc_output",
    "logs", "log", "tmp", "temp", ".tmp", ".temp", ".DS_Store",
    ".idea", ".vscode", ".cache", "cache", "vendor", "target", "bin", "obj"
  }

  /** The configuration with every field at its declared default. */
  function DefaultConfig(): (r: Config) {
    Config(".", "codebase_analysis.json", false, Some(DefaultExcludeDirs), None, None,
           true, true, true, None, false)
  }

  /** The two `ValueError`s `__post_init__` raises. */
  datatype ConfigError = WorkersBelowOne | PathMissing(path: string)

  /** `os.cpu_count() or 1`: an unknown count and a count of 0 both read
      as 1. */
  function CpuOrOne(cpuCount: Option<nat>): (n: nat)
    ensures n >= 1
    ensures cpuCount.Some? && cpuCount.value > 0 ==> n == cpuCount.value
  {
    match cpuCount
    case None => 1
    case Some(k) => if k == 0 then 1 else k
  }

  /** `min(32, (os.cpu_count() or 1) + 4)`. */
  function DefaultWorkers(cpuCount: Option<nat>): (n: int)
    ensures 5 <= n <= 32
  {
    var k := CpuOrOne(cpuCount) + 4;
    if k < 32 then k else 32
  }

  /** `__post_init__`: fill in `max_workers` and `exclude_dirs` when they are
      `None`, then reject a worker count below 1, then a path that does not
      exist. */
  function PostInit(c: Config, cpuCount: Option<nat>, pathExists: bool): (r: Result<Config, ConfigError>)
    ensures r.Success? <==> (c.maxWorkers.None? || c.maxWorkers.value >= 1) && pathExists
    ensures r.Failure? && c.maxWorkers.Some? && c.maxWorkers.value < 1 ==> r.error == WorkersBelowOne
    ensures r.Failure? && (c.maxWorkers.None? || c.maxWorkers.value >= 1) ==> r.error == PathMissing(c.path)
    ensures r.Success? ==> r.value.maxWorkers.Some? && r.value.maxWorkers.value >= 1
    ensures r.Success? ==> r.value.excludeDirs.Some?
  {
    var workers := if c.maxWorkers.None? then DefaultWorkers(cpuCount) else c.maxWorkers.value;
    var excluded := if c.excludeDirs.None? then DefaultExcludeDirs else c.excludeDirs.value;
    if workers < 1 then Failure(WorkersBelowOne)
    else if !pathExists then Failure(PathMissing(c.path))
    else Success(c.(maxWorkers := Some(workers), excludeDirs := Some(excluded)))
  }

  /** What `__post_init__` keeps and what it fills in: an explicit worker
      count and exclude set are kept; absent ones become the defaults; no
      other field changes. */
  lemma PostInitFields(c: Config, cpuCount: Option<nat>, pathExists: bool)
    requires PostInit(c, cpuCount, pathExists).Success?
    ensures var v := PostInit(c, cpuCount, pathExists).value;
      v.maxWorkers == Some(if c.maxWorkers.None? then DefaultWorkers(cpuCount) else c.maxWorkers.value)
      && v.excludeDirs == Some(if c.excludeDirs.None? then DefaultExcludeDirs else c.excludeDirs.value)
      && v.(maxWorkers := c.maxWorkers, excludeDirs := c.excludeDirs) == c
  {
  }

  /** Running the checks again on an accepted configuration changes nothing:
      every field they fill in is filled in. */
  lemma {:induction false} PostInitIdempotent(c: Config, cpuCount: Option<nat>, cpuCount': Option<nat>)
    requires PostInit(c, cpuCount, true).Success?
    ensures PostInit(PostInit(c, cpuCount, true).value, cpuCount', true) == PostInit(c, cpuCount, true)
  {
    var v := PostInit(c, cpuCount, true).value;
    assert v.maxWorkers.Some? && v.excludeDirs.Some?;
  }

  /** The default worker count follows the processor count up to 28 and is
      32 from there on. */
  lemma DefaultWorkersByCpu(k: nat)
    ensures 1 <= k <= 28 ==> DefaultWorkers(Some(k)) == k + 4
    ensures k >= 28 ==> DefaultWorkers(Some(k)) == 32
    ensures DefaultWorkers(Some(0)) == DefaultWorkers(None) == 5
  {
  }

  /** The default exclude set holds, among others, `node_modules` and
      `.git`; ordinary source directories are not in it. */
  lemma DefaultExcludeDirsContents()
    ensures "node_modules" in DefaultExcludeDirs && ".git" in DefaultExcludeDirs
    ensures "__pycache__" in DefaultExcludeDirs && ".venv" in DefaultExcludeDirs
    ensures "src" !in DefaultExcludeDirs
  {
  }

  /** A default configuration validates exactly when its path exists. */
  lemma DefaultConfigValid(cpuCount: Option<nat>, pathExists: bool)
    ensures PostInit(DefaultConfig(), cpuCount, pathExists).Success? <==> pathExists
    ensures pathExists ==>
      PostInit(DefaultConfig(), cpuCount, pathExists).value.maxWorkers == Some(DefaultWorkers(cpuCount))
  {
  }
}

=== FILE: dict.dfy ===
/** A Python `dict` as the source uses it: an association list whose keys
    are kept in insertion order. Assigning to a present key replaces its value
    in place; assigning to a new key appends it. */
module Dict {
  import opened Wrappers

  function KeySeq<K, V>(d: seq<(K, V)>): (ks: seq<K>)
    ensures |ks| == |d|
  {
    if |d| == 0 then [] else [d[0].0] + KeySeq(d[1..])
  }

  /** `d.values()`, in insertion order. */
  function Values<K, V>(d: seq<(K, V)>): (vs: seq<V>)
    ensures |vs| == |d|
  {
    if |d| == 0 then [] else [d[0].1] + Values(d[1..])
  }

  /** `d.get(k)`. */
  function Get<K(==), V>(d: seq<(K, V)>, k: K): (r: Option<V>)
    ensures r.None? <==> k !in KeySeq(d)
  {
    if |d| == 0 then None
    else if d[0].0 == k then Some(d[0].1)
    else Get(d[1..], k)
  }

  /** `d[k] = v`. A new key is appended at the end. */
  function Put<K(==), V>(d: seq<(K, V)>, k: K, v: V): (r: seq<(K, V)>)
    ensures k !in KeySeq(d) ==> r == d + [(k, v)]
  {
    if |d| == 0 then [(k, v)]
    else if d[0].0 == k then [(k, v)] + d[1..]
    else
      var r := [d[0]] + Put(d[1..], k, v);
      assert r[1..] == Put(d[1..], k, v);
      assert d == [d[0]] + d[1..];
      r
  }

  lemma {:induction false} KeySeqAppend<K, V>(d: seq<(K, V)>, e: (K, V))
    ensures KeySeq(d + [e]) == KeySeq(d) + [e.0]
  {
    if d != [] {
      assert (d + [e])[1..] == d[1..] + [e];
      KeySeqAppend(d[1..], e);
    }
  }

  lemma {:induction false} ValuesAppend<K, V>(d: seq<(K, V)>, e: (K, V))
    ensures Values(d + [e]) == Values(d) + [e.1]
  {
    if d != [] {
      assert (d + [e])[1..] == d[1..] + [e];
      ValuesAppend(d[1..], e);
    }
  }

  lemma {:induction false} KeySeqConcat<K, V>(d: seq<(K, V)>, e: seq<(K, V)>)
    ensures KeySeq(d + e) == KeySeq(d) + KeySeq(e)
  {
    if |d| != 0 {
      assert (d + e)[1..] == d[1..] + e;
      KeySeqConcat(d[1..], e);
    } else {
      assert d + e == e;
    }
  }

  /** After `d[k] = v` the key maps to `v`, and the keys are those of `d`,
      with `k` added at the end when it was not there before. */
  lemma {:induction false} PutGetKeys<K, V>(d: seq<(K, V)>, k: K, v: V)
    ensures Get(Put(d, k, v), k) == Some(v)
    ensures KeySeq(Put(d, k, v)) == if k in KeySeq(d) then KeySeq(d) else KeySeq(d) + [k]
  {
    if |d| != 0 && d[0].0 != k {
      PutGetKeys(d[1..], k, v);
      assert d == [d[0]] + d[1..];
    }
  }

  /** `d[k] = v` leaves every other key's value alone. */
  lemma {:induction false} PutOthers<K, V>(d: seq<(K, V)>, k: K, v: V, k': K)
    requires k' != k
    ensures Get(Put(d, k, v), k') == Get(d, k')
  {
    if |d| != 0 && d[0].0 != k {
      PutOthers(d[1..], k, v, k');
    }
  }
}

=== FILE: formatters.dfy ===
/** The aggregation of `codetok/formatters.py`: `categorize_files`, the
    totals of `CategoryStats`, and the summary and per-extension breakdown
    that `JSONFormatter.format` computes before writing the report. */
module Formatters {
  import opened Wrappers
  import opened Records
  import Registry
  import Dict

  // ---------------------------------------------------------------------
  // Categories

  datatype Category = CodeFiles | DocumentationFiles | ConfigFiles | OtherFiles

  /** The category of an extension: the first registry, in the order code,
      documentation, config, that holds it; otherwise other. */
  function CategoryOf(ext: string): (r: Category) {
    if ext in Registry.CodeExtensions then CodeFiles
    else if ext in Registry.DocumentationExtensions then DocumentationFiles
    else if ext in Registry.ConfigExtensions then ConfigFiles
    else OtherFiles
  }

  /** The registries are disjoint, so the order of the tests does not
      matter: an extension is in the category of the one registry that holds
      it, and in other exactly when no registry holds it. */
  lemma CategoryOfRegistered(ext: string)
    ensures CategoryOf(ext) == CodeFiles <==> ext in Registry.CodeExtensions
    ensures CategoryOf(ext) == DocumentationFiles <==> ext in Registry.DocumentationExtensions
    ensures CategoryOf(ext) == ConfigFiles <==> ext in Registry.ConfigExtensions
    ensures CategoryOf(ext) == OtherFiles <==> ext !in Registry.AllExtensions()
  {
    Registry.RegistriesDisjoint();
    Registry.AllExtensionsUnion();
  }

  /** The key of each category in the result of `categorize_files`. */
  function Key(c: Category): (r: string) {
    match c
    case CodeFiles => "code"
    case DocumentationFiles => "documentation"
    case ConfigFiles => "config"
    case OtherFiles => "other"
  }

  /** The display title of each category. */
  function Title(c: Category): (r: string) {
    match c
    case CodeFiles => "Code Files"
    case DocumentationFiles => "Documentation Files"
    case ConfigFiles => "Configuration Files"
    case OtherFiles => "Other Files"
  }

  /** The records that the classification `cat` puts in category `c`, in
      input order: the reference the categorising loop is checked against.
      The report classifies with `CategoryOf`; the facts below hold for any
      classification. */
  function FilesIn(stats: seq<FileStats>, cat: string -> Category, c: Category): (r: seq<FileStats>)
    ensures |r| <= |stats|
  {
    if |stats| == 0 then []
    else
      var last := stats[|stats| - 1];
      FilesIn(stats[..|stats| - 1], cat, c) + (if cat(last.extension) == c then [last] else [])
  }

  // ---------------------------------------------------------------------
  // CategoryStats

  /** The per-file fields that `CategoryStats` totals. */
  datatype Field = Lines | Sloc | Comments | Blank | Tokens | SizeBytes

  function FieldOf(f: FileStats, k: Field): (r: nat) {
    match k
    case Lines => f.linesTotal
    case Sloc => f.linesCode
    case Comments => f.linesComments
    case Blank => f.linesBlank
    case Tokens => f.tokens
    case SizeBytes => f.sizeBytes
  }

  /** `sum(f.<field> for f in files)`. */
  function SumField(files: seq<FileStats>, k: Field): (r: nat) {
    if |files| == 0 then 0 else SumField(files[..|files| - 1], k) + FieldOf(files[|files| - 1], k)
  }

  lemma {:induction false} SumFieldAppend(a: seq<FileStats>, b: seq<FileStats>, k: Field)
    ensures SumField(a + b, k) == SumField(a, k) + SumField(b, k)
    decreases |b|
  {
    if |b| == 0 {
      assert a + b == a;
    } else {
      assert (a + b)[..|a + b| - 1] == a + b[..|b| - 1];
      SumFieldAppend(a, b[..|b| - 1], k);
    }
  }

  /** `CategoryStats(name, icon, files)`, without the icon. */
  datatype CategoryStats = CategoryStats(
    name: string,
    files: seq<FileStats>,
    totalFiles: nat,
    totalLines: nat,
    totalSloc: nat,
    totalComments: nat,
    totalBlank: nat,
    totalTokens: nat,
    totalSizeBytes: nat)
  {
    /** The total kept for one per-file field. */
    function Total(k: Field): (r: nat) {
      match k
      case Lines => totalLines
      case Sloc => totalSloc
      case Comments => totalComments
      case Blank => totalBlank
      case Tokens => totalTokens
      case SizeBytes => totalSizeBytes
    }
  }

  function MakeCategoryStats(name: string, files: seq<FileStats>): (r: CategoryStats) {
    CategoryStats(name, files, |files|,
      SumField(files, Lines), SumField(files, Sloc), SumField(files, Comments),
      SumField(files, Blank), SumField(files, Tokens), SumField(files, SizeBytes))
  }

  /** Totals are additive: the stats of two runs of files put together are
      the sums of the stats of each. */
  lemma CategoryTotalsSplit(name: string, a: seq<FileStats>, b: seq<FileStats>, k: Field)
    ensures MakeCategoryStats(name, a + b).Total(k)
      == MakeCategoryStats(name, a).Total(k) + MakeCategoryStats(name, b).Total(k)
    ensures MakeCategoryStats(name, a + b).totalFiles
      == MakeCategoryStats(name, a).totalFiles + MakeCategoryStats(name, b).totalFiles
  {
    SumFieldAppend(a, b, k);
  }

  /** `avg_lines_per_file`: 0 for a category without files. */
  function AvgLinesPerFile(c: CategoryStats): (r: real) {
    if c.totalFiles > 0 then c.totalLines as real / c.totalFiles as real else 0.0
  }

  /** `avg_tokens_per_file`: 0 for a category without files. */
  function AvgTokensPerFile(c: CategoryStats): (r: real) {
    if c.totalFiles > 0 then c.totalTokens as real / c.totalFiles as real else 0.0
  }

  /** Averages are 0 without files; otherwise they are the totals spread
      evenly over the files. */
  lemma AveragesMeaning(c: CategoryStats)
    ensures c.totalFiles == 0 ==> AvgLinesPerFile(c) == 0.0 && AvgTokensPerFile(c) == 0.0
    ensures c.totalFiles > 0 ==>
      AvgLinesPerFile(c) * c.totalFiles as real == c.totalLines as real
      && AvgTokensPerFile(c) * c.totalFiles as real == c.totalTokens as real
  {
  }

  // ---------------------------------------------------------------------
  // categorize_files

  /** The four categories, keyed and in order, each over its files. */
  function Categories(stats: seq<FileStats>): (r: seq<(string, CategoryStats)>) {
    CategoriesBy(stats, CategoryOf)
  }

  /** The same under any classification. */
  function CategoriesBy(stats: seq<FileStats>, cat: string -> Category): (r: seq<(string, CategoryStats)>) {
    [Entry(stats, cat, CodeFiles), Entry(stats, cat, DocumentationFiles),
     Entry(stats, cat, ConfigFiles), Entry(stats, cat, OtherFiles)]
  }

  /** One category's entry: its key, and its statistics over its files. */
  function Entry(stats: seq<FileStats>, cat: string -> Category, c: Category): (e: (string, CategoryStats)) {
    (Key(c), MakeCategoryStats(Title(c), FilesIn(stats, cat, c)))
  }

  /** `categorize_files(file_stats)`: one pass over the records, appending
      each to the list of its category; then one `CategoryStats` per
      category, empty categories included. */
  method CategorizeFiles(stats: seq<FileStats>) returns (r: seq<(string, CategoryStats)>)
    ensures |r| == 4
    ensures r[0].0 == "code" && r[1].0 == "documentation" && r[2].0 == "config" && r[3].0 == "other"
    ensures r == Categories(stats)
  {
    var code, docs, config, other := [], [], [], [];
    for n := 0 to |stats|
      invariant code == FilesIn(stats[..n], CategoryOf, CodeFiles)
      invariant docs == FilesIn(stats[..n], CategoryOf, DocumentationFiles)
      invariant config == FilesIn(stats[..n], CategoryOf, ConfigFiles)
      invariant other == FilesIn(stats[..n], CategoryOf, OtherFiles)
    {
      var s := stats[n];
      FilesInSnoc(stats, n, CategoryOf);
      match CategoryOf(s.extension)
      case CodeFiles => code := code + [s];
      case DocumentationFiles => docs := docs + [s];
      case ConfigFiles => config := config + [s];
      case OtherFiles => other := other + [s];
    }
    assert stats[..|stats|] == stats;
    r := [
      ("code", MakeCategoryStats("Code Files", code)),
      ("documentation", MakeCategoryStats("Documentation Files", docs)),
      ("config", MakeCategoryStats("Configuration Files", config)),
      ("other", MakeCategoryStats("Other Files", other))
    ];
  }

  /** One more record of the input extends only the list of its own
      category. */
  lemma FilesInSnoc(stats: seq<FileStats>, n: nat, cat: string -> Category)
    requires n < |stats|
    ensures forall c: Category ::
      FilesIn(stats[..n + 1], cat, c) == FilesIn(stats[..n], cat, c) + (if cat(stats[n].extension) == c then [stats[n]] else [])
  {
    assert stats[..n + 1][..n] == stats[..n];
  }

  /** Every record lands in exactly one category: the four lists together
      are a rearrangement of the input. */
  lemma {:induction false} CategoriesPartition(stats: seq<FileStats>, cat: string -> Category)
    ensures multiset(FilesIn(stats, cat, CodeFiles)) + multiset(FilesIn(stats, cat, DocumentationFiles))
          + multiset(FilesIn(stats, cat, ConfigFiles)) + multiset(FilesIn(stats, cat, OtherFiles))
         == multiset(stats)
  {
    if |stats| != 0 {
      var n := |stats| - 1;
      CategoriesPartition(stats[..n], cat);
      assert stats == stats[..n] + [stats[n]];
      FilesInStep(stats, cat, CodeFiles);
      FilesInStep(stats, cat, DocumentationFiles);
      FilesInStep(stats, cat, ConfigFiles);
      FilesInStep(stats, cat, OtherFiles);
      PartitionStep(
        multiset(FilesIn(stats[..n], cat, CodeFiles)), multiset(FilesIn(stats[..n], cat, DocumentationFiles)),
        multiset(FilesIn(stats[..n], cat, ConfigFiles)), multiset(FilesIn(stats[..n], cat, OtherFiles)),
        multiset(stats[..n]), stats[n], cat(stats[n].extension));
    }
  }

  /** Adding one element to the part of its category keeps a partition. */
  lemma PartitionStep(a: multiset<FileStats>, b: multiset<FileStats>, c: multiset<FileStats>,
                      d: multiset<FileStats>, all: multiset<FileStats>, x: FileStats, k: Category)
    requires a + b + c + d == all
    ensures (a + (if k == CodeFiles then multiset{x} else multiset{}))
          + (b + (if k == DocumentationFiles then multiset{x} else multiset{}))
          + (c + (if k == ConfigFiles then multiset{x} else multiset{}))
          + (d + (if k == OtherFiles then multiset{x} else multiset{}))
         == all + multiset{x}
  {
  }

  /** The last record joins its own category only. */
  lemma FilesInStep(stats: seq<FileStats>, cat: string -> Category, c: Category)
    requires |stats| != 0
    ensures var n := |stats| - 1;
      multiset(FilesIn(stats, cat, c))
      == multiset(FilesIn(stats[..n], cat, c)) + (if cat(stats[n].extension) == c then multiset{stats[n]} else multiset{})
  {
  }

  /** So the category file counts add up to the number of records. */
  lemma CategoryCountsAddUp(stats: seq<FileStats>, cat: string -> Category)
    ensures var r := CategoriesBy(stats, cat);
      r[0].1.totalFiles + r[1].1.totalFiles + r[2].1.totalFiles + r[3].1.totalFiles == |stats|
  {
    CategoriesPartition(stats, cat);
    var a, b, c, d := FilesIn(stats, cat, CodeFiles), FilesIn(stats, cat, DocumentationFiles),
      FilesIn(stats, cat, ConfigFiles), FilesIn(stats, cat, OtherFiles);
    assert |multiset(a) + multiset(b) + multiset(c) + multiset(d)| == |multiset(stats)|;
  }

  /** The indices in the input of the records of one category. */
  function Positions(stats: seq<FileStats>, cat: string -> Category, c: Category): (ps: seq<nat>)
    ensures |ps| == |FilesIn(stats, cat, c)|
    ensures forall j :: 0 <= j < |ps| ==> ps[j] < |stats|
  {
    if |stats| == 0 then []
    else
      var n := |stats| - 1;
      Positions(stats[..n], cat, c) + (if cat(stats[n].extension) == c then [n] else [])
  }

  /** `r` is the subsequence of `s` at the strictly increasing positions
      `ps`. */
  predicate Picks(s: seq<FileStats>, ps: seq<nat>, r: seq<FileStats>) {
    |ps| == |r|
    && (forall j :: 0 <= j < |ps| ==> ps[j] < |s| && s[ps[j]] == r[j])
    && (forall j, k :: 0 <= j < k < |ps| ==> ps[j] < ps[k])
  }

  /** A category keeps its records in input order: they are the input's
      records at strictly increasing positions. */
  lemma {:induction false} CategoryKeepsOrder(stats: seq<FileStats>, cat: string -> Category, c: Category)
    ensures Picks(stats, Positions(stats, cat, c), FilesIn(stats, cat, c))
  {
    if |stats| != 0 {
      var n := |stats| - 1;
      var init := stats[..n];
      CategoryKeepsOrder(init, cat, c);
      var ps0 := Positions(init, cat, c);
      var r0 := FilesIn(init, cat, c);
      PicksWiden(init, stats, ps0, r0);
      if cat(stats[n].extension) == c {
        PicksExtend(stats, ps0, r0);
      } else {
        assert Positions(stats, cat, c) == ps0 + [];
        assert FilesIn(stats, cat, c) == r0 + [];
        assert ps0 + [] == ps0 && r0 + [] == r0;
      }
    }
  }

  lemma PicksWiden(init: seq<FileStats>, s: seq<FileStats>, ps: seq<nat>, r: seq<FileStats>)
    requires |s| != 0 && init == s[..|s| - 1]
    requires Picks(init, ps, r)
    ensures Picks(s, ps, r)
    ensures forall j :: 0 <= j < |ps| ==> ps[j] < |s| - 1
  {
    forall j | 0 <= j < |ps|
      ensures ps[j] < |s| && s[ps[j]] == r[j]
    {
      assert init[ps[j]] == r[j];
    }
  }

  lemma PicksExtend(s: seq<FileStats>, ps: seq<nat>, r: seq<FileStats>)
    requires |s| != 0
    requires Picks(s, ps, r)
    requires forall j :: 0 <= j < |ps| ==> ps[j] < |s| - 1
    ensures Picks(s, ps + [|s| - 1], r + [s[|s| - 1]])
  {
  }

  // ---------------------------------------------------------------------
  // The report summary

  /** The `summary` block of the report. */
  datatype Summary = Summary(
    totalFiles: nat, totalLines: nat, totalSloc: nat, totalComments: nat,
    totalBlank: nat, totalTokens: nat, totalSizeBytes: nat)

  /** The summary with one more category counted. */
  function AddCategory(s: Summary, c: CategoryStats): (r: Summary) {
    Summary(s.totalFiles + c.totalFiles, s.totalLines + c.totalLines, s.totalSloc + c.totalSloc,
      s.totalComments + c.totalComments, s.totalBlank + c.totalBlank,
      s.totalTokens + c.totalTokens, s.totalSizeBytes + c.totalSizeBytes)
  }

  /** Each summary total is the sum of the category totals. */
  function ReportSummary(cats: seq<(string, CategoryStats)>): (r: Summary) {
    if |cats| == 0 then Summary(0, 0, 0, 0, 0, 0, 0)
    else AddCategory(ReportSummary(cats[..|cats| - 1]), cats[|cats| - 1].1)
  }

  lemma ReportSummaryStep(cats: seq<(string, CategoryStats)>, e: (string, CategoryStats))
    ensures ReportSummary(cats + [e]) == AddCategory(ReportSummary(cats), e.1)
  {
    assert (cats + [e])[..|cats|] == cats;
  }

  /** The summary total of one field over the four categories. */
  function SummaryTotal(s: Summary, k: Field): (r: nat) {
    match k
    case Lines => s.totalLines
    case Sloc => s.totalSloc
    case Comments => s.totalComments
    case Blank => s.totalBlank
    case Tokens => s.totalTokens
    case SizeBytes => s.totalSizeBytes
  }

  /** Summing the categories loses nothing: the summary's file total is
      the number of records, and each other summary total is the sum of that
      field over every record. */
  lemma SummaryFileCount(stats: seq<FileStats>, cat: string -> Category)
    ensures ReportSummary(CategoriesBy(stats, cat)).totalFiles == |stats|
  {
    SummaryOfCategories(stats, cat);
    CategoryCountsAddUp(stats, cat);
  }

  lemma SummaryFieldTotal(stats: seq<FileStats>, cat: string -> Category, k: Field)
    ensures SummaryTotal(ReportSummary(CategoriesBy(stats, cat)), k) == SumField(stats, k)
  {
    SummaryOfCategories(stats, cat);
    SumPartition(stats, cat, k);
  }

  /** The summary of a categorised run, category by category. */
  lemma SummaryOfCategories(stats: seq<FileStats>, cat: string -> Category)
    ensures var a, b, c, d := Entry(stats, cat, CodeFiles).1, Entry(stats, cat, DocumentationFiles).1,
                              Entry(stats, cat, ConfigFiles).1, Entry(stats, cat, OtherFiles).1;
      ReportSummary(CategoriesBy(stats, cat)) == Summary(
        a.totalFiles + b.totalFiles + c.totalFiles + d.totalFiles,
        a.totalLines + b.totalLines + c.totalLines + d.totalLines,
        a.totalSloc + b.totalSloc + c.totalSloc + d.totalSloc,
        a.totalComments + b.totalComments + c.totalComments + d.totalComments,
        a.totalBlank + b.totalBlank + c.totalBlank + d.totalBlank,
        a.totalTokens + b.totalTokens + c.totalTokens + d.totalTokens,
        a.totalSizeBytes + b.totalSizeBytes + c.totalSizeBytes + d.totalSizeBytes)
  {
    var a, b, c, d := Entry(stats, cat, CodeFiles), Entry(stats, cat, DocumentationFiles),
                      Entry(stats, cat, ConfigFiles), Entry(stats, cat, OtherFiles);
    SummaryOfFour(a.1, b.1, c.1, d.1, a.0, b.0, c.0, d.0);
  }

  lemma SummaryOfFour(a: CategoryStats, b: CategoryStats, c: CategoryStats, d: CategoryStats,
                      ka: string, kb: string, kc: string, kd: string)
    ensures ReportSummary([(ka, a), (kb, b), (kc, c), (kd, d)]) == Summary(
      a.totalFiles + b.totalFiles + c.totalFiles + d.totalFiles,
      a.totalLines + b.totalLines + c.totalLines + d.totalLines,
      a.totalSloc + b.totalSloc + c.totalSloc + d.totalSloc,
      a.totalComments + b.totalComments + c.totalComments + d.totalComments,
      a.totalBlank + b.totalBlank + c.totalBlank + d.totalBlank,
      a.totalTokens + b.totalTokens + c.totalTokens + d.totalTokens,
      a.totalSizeBytes + b.totalSizeBytes + c.totalSizeBytes + d.totalSizeBytes)
  {
    ReportSummaryStep([], (ka, a));
    ReportSummaryStep([(ka, a)], (kb, b));
    ReportSummaryStep([(ka, a), (kb, b)], (kc, c));
    ReportSummaryStep([(ka, a), (kb, b), (kc, c)], (kd, d));
    assert [] + [(ka, a)] == [(ka, a)];
    assert [(ka, a)] + [(kb, b)] == [(ka, a), (kb, b)];
    assert [(ka, a), (kb, b)] + [(kc, c)] == [(ka, a), (kb, b), (kc, c)];
    assert [(ka, a), (kb, b), (kc, c)] + [(kd, d)] == [(ka, a), (kb, b), (kc, c), (kd, d)];
  }

  /** The field sums of the four categories add up to the field sum of the
      input. */
  lemma {:induction false} SumPartition(stats: seq<FileStats>, cat: string -> Category, k: Field)
    ensures SumField(FilesIn(stats, cat, CodeFiles), k) + SumField(FilesIn(stats, cat, DocumentationFiles), k)
          + SumField(FilesIn(stats, cat, ConfigFiles), k) + SumField(FilesIn(stats, cat, OtherFiles), k)
         == SumField(stats, k)
  {
    if |stats| != 0 {
      SumPartition(stats[..|stats| - 1], cat, k);
      SumFilesInStep(stats, cat, CodeFiles, k);
      SumFilesInStep(stats, cat, DocumentationFiles, k);
      SumFilesInStep(stats, cat, ConfigFiles, k);
      SumFilesInStep(stats, cat, OtherFiles, k);
    }
  }

  /** The last record adds its field to the sum of its own category only. */
  lemma SumFilesInStep(stats: seq<FileStats>, cat: string -> Category, c: Category, k: Field)
    requires |stats| != 0
    ensures var n := |stats| - 1;
      SumField(FilesIn(stats, cat, c), k)
      == SumField(FilesIn(stats[..n], cat, c), k) + (if cat(stats[n].extension) == c then FieldOf(stats[n], k) else 0)
  {
    var n := |stats| - 1;
    var r0 := FilesIn(stats[..n], cat, c);
    if cat(stats[n].extension) == c {
      SumFieldAppend(r0, [stats[n]], k);
      assert [stats[n]][..0] == [];
    } else {
      assert FilesIn(stats, cat, c) == r0 + [];
      assert r0 + [] == r0;
    }
  }

  // ---------------------------------------------------------------------
  // The extension breakdown

  /** The display name the report gives an extension: Python's
      `CODE.get(e) or DOCUMENTATION.get(e) or CONFIG.get(e) or e`, where an
      empty name would count as missing. */
  function DisplayName(ext: string): (r: string) {
    var a := if ext in Registry.CodeExtensions then Registry.CodeExtensions[ext] else "";
    if a != "" then a
    else
      var b := if ext in Registry.DocumentationExtensions then Registry.DocumentationExtensions[ext] else "";
      if b != "" then b
      else
        var c := if ext in Registry.ConfigExtensions then Registry.ConfigExtensions[ext] else "";
        if c != "" then c else ext
  }

  /** As no registered name is empty, the display name is the name from the
      first registry holding the extension, or the extension itself. */
  lemma DisplayNameFirstHit(ext: string)
    ensures ext in Registry.CodeExtensions ==> DisplayName(ext) == Registry.CodeExtensions[ext]
    ensures ext in Registry.DocumentationExtensions ==> DisplayName(ext) == Registry.DocumentationExtensions[ext]
    ensures ext in Registry.ConfigExtensions ==> DisplayName(ext) == Registry.ConfigExtensions[ext]
    ensures ext !in Registry.AllExtensions() ==> DisplayName(ext) == ext
  {
    Registry.DisplayNamesNonEmpty();
    Registry.RegistriesDisjoint();
    Registry.AllExtensionsUnion();
  }

  /** One entry of `extension_breakdown`. */
  datatype ExtEntry = ExtEntry(name: string, files: nat, lines: nat, tokens: nat, sizeBytes: nat)

  /** One iteration of the breakdown loop: create the entry, named by
      `name`, for a new extension, then add the file to it. */
  function AddFile(b: seq<(string, ExtEntry)>, f: FileStats, name: string -> string): (r: seq<(string, ExtEntry)>) {
    var e := f.extension;
    var cur := Dict.Get(b, e).GetOr(ExtEntry(name(e), 0, 0, 0, 0));
    Dict.Put(b, e, ExtEntry(cur.name, cur.files + 1, cur.lines + f.linesTotal,
                            cur.tokens + f.tokens, cur.sizeBytes + f.sizeBytes))
  }

  /** `ext_breakdown` after the loop over a category's files, with entries
      named by `name`; the facts below hold for any naming. */
  function Breakdown(files: seq<FileStats>, name: string -> string): (r: seq<(string, ExtEntry)>) {
    if |files| == 0 then [] else AddFile(Breakdown(files[..|files| - 1], name), files[|files| - 1], name)
  }

  /** The breakdown the report writes for a category. */
  function ExtensionBreakdown(c: CategoryStats): (r: seq<(string, ExtEntry)>) {
    Breakdown(c.files, DisplayName)
  }

  /** The sums over the entries of a breakdown. */
  function EntrySum(b: seq<(string, ExtEntry)>): (r: ExtEntry) {
    if |b| == 0 then ExtEntry("", 0, 0, 0, 0)
    else
      var s := EntrySum(b[1..]);
      var e := b[0].1;
      ExtEntry("", s.files + e.files, s.lines + e.lines, s.tokens + e.tokens, s.sizeBytes + e.sizeBytes)
  }

  /** Sums before and after `b[e] = v`: the old entry's counts, if any, are
      replaced by `v`'s. */
  lemma {:induction false} EntrySumPut(b: seq<(string, ExtEntry)>, e: string, v: ExtEntry)
    ensures var prev := Dict.Get(b, e).GetOr(ExtEntry("", 0, 0, 0, 0));
      var s, s' := EntrySum(b), EntrySum(Dict.Put(b, e, v));
      s'.files + prev.files == s.files + v.files
      && s'.lines + prev.lines == s.lines + v.lines
      && s'.tokens + prev.tokens == s.tokens + v.tokens
      && s'.sizeBytes + prev.sizeBytes == s.sizeBytes + v.sizeBytes
  {
    if |b| != 0 && b[0].0 != e {
      EntrySumPut(b[1..], e, v);
      var r := Dict.Put(b, e, v);
      assert r[1..] == Dict.Put(b[1..], e, v);
    }
  }

  /** Adding one file adds its counts to the sums of the breakdown. */
  lemma AddFileSums(b: seq<(string, ExtEntry)>, f: FileStats, name: string -> string)
    ensures var s, s' := EntrySum(b), EntrySum(AddFile(b, f, name));
      s'.files == s.files + 1 && s'.lines == s.lines + f.linesTotal
      && s'.tokens == s.tokens + f.tokens && s'.sizeBytes == s.sizeBytes + f.sizeBytes
  {
    var g := Dict.Get(b, f.extension);
    var cur := g.GetOr(ExtEntry(name(f.extension), 0, 0, 0, 0));
    var v := ExtEntry(cur.name, cur.files + 1, cur.lines + f.linesTotal, cur.tokens + f.tokens, cur.sizeBytes + f.sizeBytes);
    assert AddFile(b, f, name) == Dict.Put(b, f.extension, v);
    EntrySumPut(b, f.extension, v);
    var prev := g.GetOr(ExtEntry("", 0, 0, 0, 0));
    assert prev.files == cur.files && prev.lines == cur.lines
      && prev.tokens == cur.tokens && prev.sizeBytes == cur.sizeBytes;
  }

  /** The breakdown accounts for every file: its files, lines, tokens and
      bytes add up to the totals over the files. */
  lemma {:induction false} BreakdownSums(files: seq<FileStats>, name: string -> string)
    ensures EntrySum(Breakdown(files, name)).files == |files|
    ensures EntrySum(Breakdown(files, name)).lines == SumField(files, Lines)
    ensures EntrySum(Breakdown(files, name)).tokens == SumField(files, Tokens)
    ensures EntrySum(Breakdown(files, name)).sizeBytes == SumField(files, SizeBytes)
  {
    if |files| != 0 {
      var n := |files| - 1;
      BreakdownSums(files[..n], name);
      AddFileSums(Breakdown(files[..n], name), files[n], name);
      assert SumField(files, Lines) == SumField(files[..n], Lines) + files[n].linesTotal;
      assert SumField(files, Tokens) == SumField(files[..n], Tokens) + files[n].tokens;
      assert SumField(files, SizeBytes) == SumField(files[..n], SizeBytes) + files[n].sizeBytes;
    }
  }

  /** So per category, the report's breakdown adds up to the category's
      totals. */
  lemma BreakdownMatchesCategory(name: string, files: seq<FileStats>)
    ensures var c := MakeCategoryStats(name, files); var s := EntrySum(ExtensionBreakdown(c));
      s.files == c.totalFiles && s.lines == c.totalLines
      && s.tokens == c.totalTokens && s.sizeBytes == c.totalSizeBytes
  {
    BreakdownSums(files, DisplayName);
  }

  /** The extensions of some files, in order. */
  function Extensions(files: seq<FileStats>): (es: seq<string>)
    ensures |es| == |files|
  {
    if |files| == 0 then [] else Extensions(files[..|files| - 1]) + [files[|files| - 1].extension]
  }

  /** The breakdown has an entry for exactly the extensions of the files. */
  lemma {:induction false} BreakdownKeys(files: seq<FileStats>, name: string -> string, e: string)
    ensures e in Dict.KeySeq(Breakdown(files, name)) <==> e in Extensions(files)
  {
    if |files| != 0 {
      var n := |files| - 1;
      BreakdownKeys(files[..n], name, e);
      AddFileKeys(Breakdown(files[..n], name), files[n], name, e);
      assert Extensions(files) == Extensions(files[..n]) + [files[n].extension];
    }
  }

  /** Adding a file adds its extension to the keys, and no other. */
  lemma AddFileKeys(b: seq<(string, ExtEntry)>, f: FileStats, name: string -> string, e: string)
    ensures e in Dict.KeySeq(AddFile(b, f, name)) <==> e in Dict.KeySeq(b) || e == f.extension
  {
    var cur := Dict.Get(b, f.extension).GetOr(ExtEntry(name(f.extension), 0, 0, 0, 0));
    var v := ExtEntry(cur.name, cur.files + 1, cur.lines + f.linesTotal, cur.tokens + f.tokens, cur.sizeBytes + f.sizeBytes);
    assert AddFile(b, f, name) == Dict.Put(b, f.extension, v);
    Dict.PutGetKeys(b, f.extension, v);
  }

  /** Every entry is named after its extension by `name`. */
  predicate NamedEntries(b: seq<(string, ExtEntry)>, name: string -> string) {
    forall i :: 0 <= i < |b| ==> b[i].1.name == name(b[i].0)
  }

  lemma {:induction false} PutKeepsNames(b: seq<(string, ExtEntry)>, name: string -> string, e: string, v: ExtEntry)
    requires NamedEntries(b, name) && v.name == name(e)
    ensures NamedEntries(Dict.Put(b, e, v), name)
  {
    if |b| != 0 && b[0].0 != e {
      PutKeepsNames(b[1..], name, e, v);
      var r := Dict.Put(b, e, v);
      assert r == [b[0]] + Dict.Put(b[1..], e, v);
    }
  }

  lemma {:induction false} GetNamed(b: seq<(string, ExtEntry)>, name: string -> string, e: string)
    requires NamedEntries(b, name)
    ensures Dict.Get(b, e).Some? ==> Dict.Get(b, e).value.name == name(e)
  {
    if |b| != 0 && b[0].0 != e {
      GetNamed(b[1..], name, e);
    }
  }

  /** The breakdown names each extension by `name`; the report's by the
      display name. */
  lemma {:induction false} BreakdownNames(files: seq<FileStats>, name: string -> string)
    ensures NamedEntries(Breakdown(files, name), name)
  {
    if |files| != 0 {
      var n := |files| - 1;
      var b := Breakdown(files[..n], name);
      BreakdownNames(files[..n], name);
      var f := files[n];
      GetNamed(b, name, f.extension);
      var cur := Dict.Get(b, f.extension).GetOr(ExtEntry(name(f.extension), 0, 0, 0, 0));
      PutKeepsNames(b, name, f.extension,
        ExtEntry(cur.name, cur.files + 1, cur.lines + f.linesTotal, cur.tokens + f.tokens, cur.sizeBytes + f.sizeBytes));
    }
  }

  /** The files with extension `e`, in order. */
  function FilesWith(files: seq<FileStats>, e: string): (r: seq<FileStats>)
    ensures |r| <= |files|
    ensures forall i :: 0 <= i < |r| ==> r[i].extension == e
  {
    if |files| == 0 then []
    else
      var last := files[|files| - 1];
      FilesWith(files[..|files| - 1], e) + (if last.extension == e then [last] else [])
  }

  /** The entry the files `fs`, all with extension `e`, should make. */
  function EntryOf(fs: seq<FileStats>, name: string -> string, e: string): (r: Option<ExtEntry>) {
    if fs == [] then None
    else Some(ExtEntry(name(e), |fs|, SumField(fs, Lines), SumField(fs, Tokens), SumField(fs, SizeBytes)))
  }

  /** The entry of each extension: absent when no file has it, otherwise
      named by `name` and holding the number of files with that extension
      and the sums of their lines, tokens and bytes. */
  lemma {:induction false} BreakdownEntry(files: seq<FileStats>, name: string -> string, e: string)
    ensures var fs := FilesWith(files, e);
      Dict.Get(Breakdown(files, name), e)
        == if fs == [] then None
           else Some(ExtEntry(name(e), |fs|, SumField(fs, Lines), SumField(fs, Tokens), SumField(fs, SizeBytes)))
  {
    BreakdownEntryOf(files, name, e);
  }

  lemma {:induction false} BreakdownEntryOf(files: seq<FileStats>, name: string -> string, e: string)
    ensures Dict.Get(Breakdown(files, name), e) == EntryOf(FilesWith(files, e), name, e)
  {
    if |files| != 0 {
      var n := |files| - 1;
      var f := files[n];
      var b := Breakdown(files[..n], name);
      assert Breakdown(files, name) == AddFile(b, f, name);
      BreakdownEntryOf(files[..n], name, e);
      if f.extension == e {
        assert FilesWith(files, e) == FilesWith(files[..n], e) + [f];
        AddFileSame(b, f, name, FilesWith(files[..n], e));
      } else {
        assert FilesWith(files, e) == FilesWith(files[..n], e);
        AddFileOther(b, f, name, e);
      }
    }
  }

  lemma AddFileSame(b: seq<(string, ExtEntry)>, f: FileStats, name: string -> string, fs: seq<FileStats>)
    requires Dict.Get(b, f.extension) == EntryOf(fs, name, f.extension)
    ensures Dict.Get(AddFile(b, f, name), f.extension) == EntryOf(fs + [f], name, f.extension)
  {
    AddFilePuts(b, f, name, fs);
    Dict.PutGetKeys(b, f.extension, EntryOf(fs + [f], name, f.extension).value);
  }

  /** Adding the file stores the entry of the files seen so far plus it. */
  lemma AddFilePuts(b: seq<(string, ExtEntry)>, f: FileStats, name: string -> string, fs: seq<FileStats>)
    requires Dict.Get(b, f.extension) == EntryOf(fs, name, f.extension)
    ensures EntryOf(fs + [f], name, f.extension).Some?
    ensures AddFile(b, f, name) == Dict.Put(b, f.extension, EntryOf(fs + [f], name, f.extension).value)
  {
    var cur := Dict.Get(b, f.extension).GetOr(ExtEntry(name(f.extension), 0, 0, 0, 0));
    var v := ExtEntry(cur.name, cur.files + 1, cur.lines + f.linesTotal, cur.tokens + f.tokens, cur.sizeBytes + f.sizeBytes);
    CurrentEntry(b, f.extension, name, fs);
    EntryOfSnoc(fs, f, name);
    assert v == EntryOf(fs + [f], name, f.extension).value;
  }

  /** The entry the loop starts from for extension `e`: the existing one, or
      a fresh one with zero counts; either way, the totals of `fs`. */
  lemma CurrentEntry(b: seq<(string, ExtEntry)>, e: string, name: string -> string, fs: seq<FileStats>)
    requires Dict.Get(b, e) == EntryOf(fs, name, e)
    ensures Dict.Get(b, e).GetOr(ExtEntry(name(e), 0, 0, 0, 0))
         == ExtEntry(name(e), |fs|, SumField(fs, Lines), SumField(fs, Tokens), SumField(fs, SizeBytes))
  {
    if fs == [] {
      assert SumField(fs, Lines) == SumField(fs, Tokens) == SumField(fs, SizeBytes) == 0;
    }
  }

  /** One more file with extension `e` adds its fields to `e`'s entry. */
  lemma EntryOfSnoc(fs: seq<FileStats>, f: FileStats, name: string -> string)
    ensures EntryOf(fs + [f], name, f.extension).Some?
    ensures EntryOf(fs + [f], name, f.extension).value.name == name(f.extension)
    ensures EntryOf(fs + [f], name, f.extension).value.files == |fs| + 1
    ensures EntryOf(fs + [f], name, f.extension).value.lines == SumField(fs, Lines) + f.linesTotal
    ensures EntryOf(fs + [f], name, f.extension).value.tokens == SumField(fs, Tokens) + f.tokens
    ensures EntryOf(fs + [f], name, f.extension).value.sizeBytes == SumField(fs, SizeBytes) + f.sizeBytes
  {
    var fs' := fs + [f];
    assert |fs'| == |fs| + 1 && fs' != [];
    assert EntryOf(fs', name, f.extension)
        == Some(ExtEntry(name(f.extension), |fs'|, SumField(fs', Lines), SumField(fs', Tokens), SumField(fs', SizeBytes)));
    SumFieldSnoc(fs, f, Lines);
    SumFieldSnoc(fs, f, Tokens);
    SumFieldSnoc(fs, f, SizeBytes);
  }

  lemma SumFieldSnoc(fs: seq<FileStats>, f: FileStats, k: Field)
    ensures SumField(fs + [f], k) == SumField(fs, k) + FieldOf(f, k)
  {
    assert (fs + [f])[..|fs|] == fs;
  }

  lemma AddFileOther(b: seq<(string, ExtEntry)>, f: FileStats, name: string -> string, e: string)
    requires e != f.extension
    ensures Dict.Get(AddFile(b, f, name), e) == Dict.Get(b, e)
  {
    var cur := Dict.Get(b, f.extension).GetOr(ExtEntry(name(f.extension), 0, 0, 0, 0));
    var v := ExtEntry(cur.name, cur.files + 1, cur.lines + f.linesTotal, cur.tokens + f.tokens, cur.sizeBytes + f.sizeBytes);
    Dict.PutOthers(b, f.extension, v, e);
  }
}

=== FILE: heuristic.dfy ===
/** The heuristic tier of `count_lines_by_type` in `codetok/parser.py`: each
    line of the content is classified on its own, by whether it is blank and
    whether it starts with one of the extension's comment prefixes. */
module Heuristic {
  import opened Text
  import opened Kinds
  import Registry

  /** The per-extension single-line comment prefixes of the heuristic tier. */
  const SingleLineComments: map<string, string> := map[
    ".py" := "#",
    ".js" := "//",
    ".jsx" := "//",
    ".ts" := "//",
    ".tsx" := "//",
    ".java" := "//",
    ".cpp" := "//",
    ".c" := "//",
    ".h" := "//",
    ".cs" := "//",
    ".php" := "//",
    ".go" := "//",
    ".rs" := "//",
    ".swift" := "//",
    ".sql" := "--",
    ".sh" := "#"
  ]

  /** The heuristic tier's verdict on one line. It looks at that line alone:
      no state is carried from the lines before it. */
  function ClassifyLine(line: string, ext: string): (r: LineKind) {
    var stripped := Strip(line);
    if stripped == [] then Blank
    else if StartsComment(stripped, ext) then Comment
    // documentation files, like every other file, count the rest as code
    else Code
  }

  /** The four comment tests of the heuristic tier, in the source's order:
      the extension's single-line prefix, Python docstring quotes, markup
      comments, stylesheet comments. */
  predicate StartsComment(stripped: string, ext: string) {
    || (ext in SingleLineComments && StartsWith(stripped, SingleLineComments[ext]))
    || (ext == ".py" && (StartsWith(stripped, "\"\"\"") || StartsWith(stripped, "'''")))
    || (ext in {".html", ".htm", ".xml"} && StartsWith(stripped, "<!--"))
    || (ext in {".css", ".scss"} && StartsWith(stripped, "/*"))
  }

  /** Every prefix that makes a stripped line a comment under an extension,
      gathered as one set: the reference the ordered tests of `StartsComment`
      are checked against. */
  function CommentPrefixes(ext: string): (r: set<string>) {
    (if ext in SingleLineComments then {SingleLineComments[ext]} else {})
    + (if ext == ".py" then {"\"\"\"", "'''"} else {})
    + (if ext in {".html", ".htm", ".xml"} then {"<!--"} else {})
    + (if ext in {".css", ".scss"} then {"/*"} else {})
  }

  /** A stripped line starts a comment exactly when it starts with one of the
      extension's comment prefixes. */
  lemma StartsCommentIffPrefix(stripped: string, ext: string)
    ensures StartsComment(stripped, ext) <==>
      exists p :: p in CommentPrefixes(ext) && StartsWith(stripped, p)
  {
    if StartsComment(stripped, ext) {
      if ext in SingleLineComments && StartsWith(stripped, SingleLineComments[ext]) {
        assert SingleLineComments[ext] in CommentPrefixes(ext);
      } else if ext == ".py" && StartsWith(stripped, "\"\"\"") {
        assert "\"\"\"" in CommentPrefixes(ext);
      } else if ext == ".py" && StartsWith(stripped, "'''") {
        assert "'''" in CommentPrefixes(ext);
      } else if ext in {".html", ".htm", ".xml"} && StartsWith(stripped, "<!--") {
        assert "<!--" in CommentPrefixes(ext);
      } else {
        assert "/*" in CommentPrefixes(ext);
      }
    }
  }

  /** The heuristic tier's rules: a line is blank exactly when it is all
      whitespace, a comment exactly when it is not blank and its stripped form
      starts with one of the extension's comment prefixes, and code
      otherwise. */
  lemma ClassifyLineRules(line: string, ext: string)
    ensures ClassifyLine(line, ext) == Blank <==> AllSpace(line)
    ensures ClassifyLine(line, ext) == Comment <==>
      !AllSpace(line) && exists p :: p in CommentPrefixes(ext) && StartsWith(Strip(line), p)
    ensures ClassifyLine(line, ext) == Code <==>
      !AllSpace(line) && forall p :: p in CommentPrefixes(ext) ==> !StartsWith(Strip(line), p)
  {
    StripEmptyIffAllSpace(line);
    StartsCommentIffPrefix(Strip(line), ext);
  }

  /** Documentation files and files of an unregistered kind have no comment
      prefix, so the heuristic tier never reports a comment line for them. */
  lemma NoCommentsWithoutPrefixes(line: string, ext: string)
    requires ext in Registry.DocumentationExtensions || ext !in Registry.AllExtensions()
    ensures CommentPrefixes(ext) == {}
    ensures ClassifyLine(line, ext) != Comment
  {
    if ext in Registry.DocumentationExtensions {
      DocumentationHasNoPrefixes(ext);
    } else {
      UnregisteredHasNoPrefixes(ext);
    }
    StartsCommentIffPrefix(Strip(line), ext);
  }

  /** Under an extension without comment prefixes every line is blank or
      code, by whether it is all whitespace. */
  lemma PlainLines(lines: seq<string>, ext: string)
    requires CommentPrefixes(ext) == {}
    ensures forall i :: 0 <= i < |lines| ==>
      LineKinds(lines, ext)[i] == if AllSpace(lines[i]) then Blank else Code
  {
    forall i | 0 <= i < |lines|
      ensures LineKinds(lines, ext)[i] == if AllSpace(lines[i]) then Blank else Code
    {
      ClassifyLineRules(lines[i], ext);
    }
  }

  lemma DocumentationHasNoPrefixes(ext: string)
    requires ext in Registry.DocumentationExtensions
    ensures CommentPrefixes(ext) == {}
  {
    Registry.DocumentationNotElsewhere(ext);
    Registry.DocumentationKeys();
    NoPrefixesOutsideCode(ext);
  }

  lemma UnregisteredHasNoPrefixes(ext: string)
    requires ext !in Registry.AllExtensions()
    ensures CommentPrefixes(ext) == {}
  {
    Registry.AllExtensionsUnion();
    XmlIsConfig();
    NoPrefixesOutsideCode(ext);
  }

  lemma XmlIsConfig()
    ensures ".xml" in Registry.ConfigExtensions
  {
  }

  /** Apart from `.xml`, only code extensions have comment prefixes. */
  lemma NoPrefixesOutsideCode(ext: string)
    requires ext !in Registry.CodeExtensions && ext != ".xml"
    ensures CommentPrefixes(ext) == {}
  {
    if ext in SingleLineComments {
      SingleLineCommentsAreCode(ext);
    }
    MarkupAndStyleAreCode();
  }

  lemma MarkupAndStyleAreCode()
    ensures ".py" in Registry.CodeExtensions
    ensures ".html" in Registry.CodeExtensions && ".htm" in Registry.CodeExtensions
    ensures ".css" in Registry.CodeExtensions && ".scss" in Registry.CodeExtensions
  {
  }

  /** Only code extensions carry a single-line comment prefix. */
  lemma SingleLineCommentsAreCode(ext: string)
    requires ext in SingleLineComments
    ensures ext in Registry.CodeExtensions
  {
  }

  /** The kind of each line, in order. */
  function LineKinds(lines: seq<string>, ext: string): (kinds: seq<LineKind>)
    ensures |kinds| == |lines|
    ensures forall i :: 0 <= i < |lines| ==> kinds[i] == ClassifyLine(lines[i], ext)
  {
    seq(|lines|, i requires 0 <= i < |lines| => ClassifyLine(lines[i], ext))
  }

  /** The heuristic tier on already split lines. */
  function HeuristicCounts(lines: seq<string>, ext: string): (r: Counts) {
    Tally(LineKinds(lines, ext))
  }

  /** Each line raises exactly one counter, so the heuristic tier's three
      counts add up to the number of lines. */
  lemma HeuristicSumIsLineCount(lines: seq<string>, ext: string)
    ensures var c := HeuristicCounts(lines, ext); c.code + c.comment + c.blank == |lines|
  {
  }

  /** The heuristic tier is stateless: the counts of two line lists
      concatenated are the sums of their separate counts. */
  lemma HeuristicAdditive(a: seq<string>, b: seq<string>, ext: string)
    ensures HeuristicCounts(a + b, ext) == HeuristicCounts(a, ext).Plus(HeuristicCounts(b, ext))
  {
    var ka, kb, kab := LineKinds(a, ext), LineKinds(b, ext), LineKinds(a + b, ext);
    forall i | 0 <= i < |kab|
      ensures kab[i] == (ka + kb)[i]
    {
      if i < |a| {
        assert (a + b)[i] == a[i];
      } else {
        assert (a + b)[i] == b[i - |a|];
      }
    }
    assert kab == ka + kb;
    TallyAppend(ka, kb);
  }

  // The heuristic tier keeps no state across lines, so only the opening
  // line of a stylesheet block comment is a comment: interior lines that do
  // not themselves start with the opening delimiter count as code.
  lemma BlockCommentInteriorIsCode(open: string, interior: seq<string>, ext: string)
    requires ext == ".css" || ext == ".scss"
    requires StartsWith(Strip(open), "/*")
    requires forall i :: 0 <= i < |interior| ==>
      !AllSpace(interior[i]) && !StartsWith(Strip(interior[i]), "/*")
    ensures HeuristicCounts([open] + interior, ext) == Counts(|interior|, 1, 0)
  {
    OpeningLineIsComment(open, ext);
    InteriorLinesAreCode(interior, ext);
    HeuristicAdditive([open], interior, ext);
    assert LineKinds([open], ext) == [Comment];
  }

  lemma OpeningLineIsComment(open: string, ext: string)
    requires ext == ".css" || ext == ".scss"
    requires StartsWith(Strip(open), "/*")
    ensures ClassifyLine(open, ext) == Comment
  {
    StyleSheetPrefixes(ext);
    StripNonEmptyWhenPrefixed(open, "/*");
    ClassifyLineRules(open, ext);
  }

  lemma InteriorLinesAreCode(interior: seq<string>, ext: string)
    requires ext == ".css" || ext == ".scss"
    requires forall i :: 0 <= i < |interior| ==>
      !AllSpace(interior[i]) && !StartsWith(Strip(interior[i]), "/*")
    ensures HeuristicCounts(interior, ext) == Counts(|interior|, 0, 0)
  {
    StyleSheetPrefixes(ext);
    forall i | 0 <= i < |interior|
      ensures ClassifyLine(interior[i], ext) == Code
    {
      ClassifyLineRules(interior[i], ext);
    }
    TallyCountsOccurrences(LineKinds(interior, ext));
    AllOneKind(LineKinds(interior, ext), Code);
  }

  lemma StyleSheetPrefixes(ext: string)
    requires ext == ".css" || ext == ".scss"
    ensures CommentPrefixes(ext) == {"/*"}
  {
  }

  lemma StripNonEmptyWhenPrefixed(line: string, prefix: string)
    requires prefix != [] && StartsWith(Strip(line), prefix)
    ensures !AllSpace(line)
  {
    StripEmptyIffAllSpace(line);
  }
}

=== FILE: kinds.dfy ===
/** Line kinds and the `(code, comment, blank)` triple both counting tiers
    of `codetok/parser.py` produce. */
module Kinds {

  datatype LineKind = Code | Comment | Blank

  /** The triple `(code_lines, comment_lines, blank_lines)`. */
  datatype Counts = Counts(code: nat, comment: nat, blank: nat) {
    function Plus(other: Counts): (r: Counts) {
      Counts(code + other.code, comment + other.comment, blank + other.blank)
    }
  }

  /** Counts each kind in a sequence of line kinds, one counter raised per
      element: the counting loops of both tiers. */
  function Tally(kinds: seq<LineKind>): (c: Counts)
    ensures c.code + c.comment + c.blank == |kinds|
  {
    if |kinds| == 0 then Counts(0, 0, 0)
    else
      var rest := Tally(kinds[1..]);
      match kinds[0]
      case Code => Counts(rest.code + 1, rest.comment, rest.blank)
      case Comment => Counts(rest.code, rest.comment + 1, rest.blank)
      case Blank => Counts(rest.code, rest.comment, rest.blank + 1)
  }

  /** Each count of a tally is the number of occurrences of its kind. */
  lemma {:induction false} TallyCountsOccurrences(kinds: seq<LineKind>)
    ensures Tally(kinds) == Counts(multiset(kinds)[Code], multiset(kinds)[Comment], multiset(kinds)[Blank])
  {
    if |kinds| != 0 {
      assert kinds == [kinds[0]] + kinds[1..];
      TallyCountsOccurrences(kinds[1..]);
    }
  }

  /** Tallies add up over concatenated kind sequences. */
  lemma TallyAppend(a: seq<LineKind>, b: seq<LineKind>)
    ensures Tally(a + b) == Tally(a).Plus(Tally(b))
  {
    TallyCountsOccurrences(a);
    TallyCountsOccurrences(b);
    TallyCountsOccurrences(a + b);
    assert multiset(a + b) == multiset(a) + multiset(b);
  }

  /** A sequence of one kind only has no other kind in it. */
  lemma {:induction false} AllOneKind(kinds: seq<LineKind>, k: LineKind)
    requires forall i :: 0 <= i < |kinds| ==> kinds[i] == k
    ensures multiset(kinds)[k] == |kinds|
    ensures forall k' :: k' != k ==> multiset(kinds)[k'] == 0
  {
    if |kinds| != 0 {
      assert kinds == [kinds[0]] + kinds[1..];
      AllOneKind(kinds[1..], k);
    }
  }
}

=== FILE: lexer.dfy ===
/** The lexical tier of `count_lines_by_type` in `codetok/parser.py`: a walk
    over the lexer's token stream that records one kind per line of each
    token's text, under consecutive line numbers, in a dict. */
module LexerTier {
  import opened Text
  import opened Kinds
  import Dict

  /** One `(ttype, value)` pair of the lexer's output, reduced to what the
      walk inspects: whether `ttype in Token.Comment`, and the token text. */
  datatype LexToken = LexToken(isComment: bool, text: string)

  /** State of the walk: `current_line` and the `line_types` dict from line
      number to kind. */
  datatype Walk = Walk(currentLine: nat, lineTypes: seq<(nat, LineKind)>)

  /** The kind the walk records for one `splitlines()` piece of a token. */
  function PieceKind(piece: string, isComment: bool): (r: LineKind) {
    if Strip(piece) == [] then Blank
    else if isComment then Comment
    else Code
  }

  /** The inner loop: one recorded line per piece, numbered consecutively. */
  function WalkPieces(w: Walk, pieces: seq<string>, isComment: bool): (r: Walk)
    decreases |pieces|
  {
    if |pieces| == 0 then w
    else
      var types := Dict.Put<nat, LineKind>(w.lineTypes, w.currentLine, PieceKind(pieces[0], isComment));
      WalkPieces(Walk(w.currentLine + 1, types), pieces[1..], isComment)
  }

  /** The outer loop over the token stream. */
  function WalkTokens(w: Walk, tokens: seq<LexToken>): (r: Walk)
    decreases |tokens|
  {
    if |tokens| == 0 then w
    else WalkTokens(WalkPieces(w, SplitLines(tokens[0].text), tokens[0].isComment), tokens[1..])
  }

  function Max0(x: int): (r: nat) {
    if x < 0 then 0 else x
  }

  /** The lexical tier: the kinds recorded by the walk, tallied, with the
      blank count corrected by the difference between the file's line count
      and the number of recorded lines (never below 0). */
  function LexerCounts(tokens: seq<LexToken>, lineCount: nat): (r: Counts) {
    var w := WalkTokens(Walk(1, []), tokens);
    var recorded := Tally(Dict.Values(w.lineTypes));
    Counts(recorded.code, recorded.comment,
           Max0(recorded.blank + lineCount - |w.lineTypes|))
  }

  /** The reference for the walk: one kind per `splitlines()` piece of every
      token, in stream order. */
  function Slots(tokens: seq<LexToken>): (r: seq<LineKind>) {
    if |tokens| == 0 then []
    else PieceKinds(SplitLines(tokens[0].text), tokens[0].isComment) + Slots(tokens[1..])
  }

  function PieceKinds(pieces: seq<string>, isComment: bool): (kinds: seq<LineKind>)
    ensures |kinds| == |pieces|
  {
    if |pieces| == 0 then [] else [PieceKind(pieces[0], isComment)] + PieceKinds(pieces[1..], isComment)
  }

  /** The kinds numbered consecutively from `first`: what `line_types` gains
      when no line number is ever assigned twice. */
  function Numbered(kinds: seq<LineKind>, first: nat): (d: seq<(nat, LineKind)>)
    ensures |d| == |kinds|
  {
    if |kinds| == 0 then [] else [(first, kinds[0])] + Numbered(kinds[1..], first + 1)
  }

  lemma {:induction false} NumberedShape(kinds: seq<LineKind>, first: nat)
    ensures forall k: nat :: k in Dict.KeySeq(Numbered(kinds, first)) ==> first <= k < first + |kinds|
    ensures Dict.Values(Numbered(kinds, first)) == kinds
  {
    if |kinds| != 0 {
      NumberedShape(kinds[1..], first + 1);
      assert kinds == [kinds[0]] + kinds[1..];
    }
  }

  lemma {:induction false} NumberedConcat(a: seq<LineKind>, b: seq<LineKind>, first: nat)
    ensures Numbered(a + b, first) == Numbered(a, first) + Numbered(b, first + |a|)
  {
    if |a| != 0 {
      assert (a + b)[1..] == a[1..] + b;
      NumberedConcat(a[1..], b, first + 1);
    } else {
      assert a + b == b;
    }
  }

  /** The inner loop only ever adds fresh line numbers: from a dict whose
      keys all lie below the current line, it appends the pieces' kinds,
      numbered on from the current line. */
  lemma {:induction false} WalkPiecesAppends(w: Walk, pieces: seq<string>, isComment: bool)
    requires forall k: nat :: k in Dict.KeySeq(w.lineTypes) ==> k < w.currentLine
    ensures WalkPieces(w, pieces, isComment)
         == Walk(w.currentLine + |pieces|, w.lineTypes + Numbered(PieceKinds(pieces, isComment), w.currentLine))
    decreases |pieces|
  {
    if |pieces| == 0 {
      assert w.lineTypes + [] == w.lineTypes;
    } else {
      var n := w.currentLine;
      var k := PieceKind(pieces[0], isComment);
      var e: (nat, LineKind) := (n, k);
      FreshKey(w.lineTypes, n);
      var d := Dict.Put<nat, LineKind>(w.lineTypes, n, k);
      assert d == w.lineTypes + [e];
      Dict.KeySeqAppend<nat, LineKind>(w.lineTypes, e);
      assert WalkPieces(w, pieces, isComment) == WalkPieces(Walk(n + 1, d), pieces[1..], isComment);
      WalkPiecesAppends(Walk(n + 1, d), pieces[1..], isComment);
      var ks := PieceKinds(pieces, isComment);
      PieceKindsStep(pieces, isComment);
      var w2 := WalkPieces(Walk(n + 1, d), pieces[1..], isComment);
      ConsNumbered(w.lineTypes, d, w2.lineTypes, ks, n);
    }
  }

  /** The outer loop likewise: the walk appends every token's slots, numbered
      on from the current line. */
  lemma {:induction false} WalkTokensAppends(w: Walk, tokens: seq<LexToken>)
    requires forall k: nat :: k in Dict.KeySeq(w.lineTypes) ==> k < w.currentLine
    ensures WalkTokens(w, tokens)
         == Walk(w.currentLine + |Slots(tokens)|, w.lineTypes + Numbered(Slots(tokens), w.currentLine))
    decreases |tokens|
  {
    if |tokens| == 0 {
      assert Slots(tokens) == [];
      assert Numbered([], w.currentLine) == [];
      assert w.lineTypes + [] == w.lineTypes;
    } else {
      var pieces := SplitLines(tokens[0].text);
      var kinds := PieceKinds(pieces, tokens[0].isComment);
      var n := w.currentLine;
      var w1 := WalkPieces(w, pieces, tokens[0].isComment);
      WalkTokensStep(w, tokens);
      WalkPiecesAppends(w, pieces, tokens[0].isComment);
      FreshAfterAppend(w.lineTypes, kinds, n);
      WalkTokensAppends(w1, tokens[1..]);
      var w2 := WalkTokens(w1, tokens[1..]);
      AppendNumberedVia(w.lineTypes, w1.lineTypes, w2.lineTypes, kinds, Slots(tokens[1..]), n, w1.currentLine);
    }
  }

  /** Two appends of consecutively numbered kinds in a row append the
      numbered concatenation. */
  lemma AppendNumberedVia(d: seq<(nat, LineKind)>, d1: seq<(nat, LineKind)>, d2: seq<(nat, LineKind)>,
                          a: seq<LineKind>, b: seq<LineKind>, n: nat, m: nat)
    requires d1 == d + Numbered(a, n)
    requires m == n + |a|
    requires d2 == d1 + Numbered(b, m)
    ensures d2 == d + Numbered(a + b, n)
  {
    AppendNumbered(d, a, b, n);
  }

  /** One step of the outer loop, and the matching step of the reference. */
  lemma WalkTokensStep(w: Walk, tokens: seq<LexToken>)
    requires |tokens| > 0
    ensures WalkTokens(w, tokens)
         == WalkTokens(WalkPieces(w, SplitLines(tokens[0].text), tokens[0].isComment), tokens[1..])
    ensures Slots(tokens) == PieceKinds(SplitLines(tokens[0].text), tokens[0].isComment) + Slots(tokens[1..])
  {
  }

  lemma AppendNumbered(d: seq<(nat, LineKind)>, a: seq<LineKind>, b: seq<LineKind>, n: nat)
    ensures (d + Numbered(a, n)) + Numbered(b, n + |a|) == d + Numbered(a + b, n)
  {
    NumberedConcat(a, b, n);
  }

  /** Appending one numbered kind and then the rest numbered on from the
      next line appends the whole, numbered. */
  lemma ConsNumbered(d: seq<(nat, LineKind)>, d1: seq<(nat, LineKind)>, d2: seq<(nat, LineKind)>,
                     ks: seq<LineKind>, n: nat)
    requires |ks| > 0
    requires d1 == d + [(n, ks[0])]
    requires d2 == d1 + Numbered(ks[1..], n + 1)
    ensures d2 == d + Numbered(ks, n)
  {
    NumberedStep(ks, n);
  }

  lemma NumberedStep(ks: seq<LineKind>, n: nat)
    requires |ks| > 0
    ensures Numbered(ks, n) == [(n, ks[0])] + Numbered(ks[1..], n + 1)
  {
  }

  lemma PieceKindsStep(pieces: seq<string>, isComment: bool)
    requires |pieces| > 0
    ensures PieceKinds(pieces, isComment)[0] == PieceKind(pieces[0], isComment)
    ensures PieceKinds(pieces, isComment)[1..] == PieceKinds(pieces[1..], isComment)
  {
  }

  lemma FreshKey(d: seq<(nat, LineKind)>, n: nat)
    requires forall k: nat :: k in Dict.KeySeq(d) ==> k < n
    ensures n !in Dict.KeySeq(d)
  {
  }

  lemma FreshAfterAppend(d: seq<(nat, LineKind)>, kinds: seq<LineKind>, n: nat)
    requires forall k: nat :: k in Dict.KeySeq(d) ==> k < n
    ensures forall k: nat :: k in Dict.KeySeq(d + Numbered(kinds, n)) ==> k < n + |kinds|
  {
    Dict.KeySeqConcat<nat, LineKind>(d, Numbered(kinds, n));
    NumberedShape(kinds, n);
  }

  /** The walk numbers one line per `splitlines()` piece of every token,
      consecutively from 1, and never assigns a line number twice: the
      recorded kinds are exactly the reference slots, in order. */
  lemma WalkRecordsSlots(tokens: seq<LexToken>)
    ensures WalkTokens(Walk(1, []), tokens).lineTypes == Numbered(Slots(tokens), 1)
    ensures Dict.Values(WalkTokens(Walk(1, []), tokens).lineTypes) == Slots(tokens)
  {
    WalkTokensAppends(Walk(1, []), tokens);
    assert [] + Numbered(Slots(tokens), 1) == Numbered(Slots(tokens), 1);
    NumberedShape(Slots(tokens), 1);
  }

  /** The lexical tier's code and comment counts are the number of code and
      comment slots; its blank count is the file's line count minus those,
      never below 0. Its three counts therefore add up to the larger of the
      line count and the code-plus-comment slot count. */
  lemma LexerCountsShape(tokens: seq<LexToken>, lineCount: nat)
    ensures LexerCounts(tokens, lineCount).code == multiset(Slots(tokens))[Code]
    ensures LexerCounts(tokens, lineCount).comment == multiset(Slots(tokens))[Comment]
    ensures LexerCounts(tokens, lineCount).blank
         == Max0(lineCount - LexerCounts(tokens, lineCount).code - LexerCounts(tokens, lineCount).comment)
    ensures var c := LexerCounts(tokens, lineCount);
      c.code + c.comment + c.blank == if lineCount >= c.code + c.comment then lineCount else c.code + c.comment
  {
    WalkRecordsSlots(tokens);
    var slots := Slots(tokens);
    var w := WalkTokens(Walk(1, []), tokens);
    assert |w.lineTypes| == |slots|;
    TallyCountsOccurrences(slots);
    var t := Tally(slots);
    assert t.code + t.comment + t.blank == |slots|;
    assert LexerCounts(tokens, lineCount) == Counts(t.code, t.comment, Max0(t.blank + lineCount - |slots|));
  }

  /** The text a token stream spells out, the concatenation of its tokens'
      texts. The lexer is built with `stripall`, and `ensurenl` is on by
      default, so this is not the file's content itself: it is the content
      with `\r\n` and `\r` turned into `\n`, leading and trailing whitespace
      stripped, and a final `\n` appended. */
  function SourceText(tokens: seq<LexToken>): (r: string)
  {
    if |tokens| == 0 then [] else tokens[0].text + SourceText(tokens[1..])
  }

  /** The lexical tier counts slots, not physical lines. Take a one-line
      file with no surrounding whitespace, lexed into non-blank, non-comment
      tokens without a line break. The lexer emits those tokens followed by
      the `\n` that `ensurenl` appends, whose single empty piece is a blank
      slot. The tier reports one code line per token and no blank line, so
      two or more tokens report more code lines than the file has lines.
      The same holds for the bare tokens without the final `\n`. */
  lemma LexerCountsTokensOnOneLine(tokens: seq<LexToken>)
    requires |tokens| >= 1
    requires forall i :: 0 <= i < |tokens| ==>
      tokens[i].text != [] && NoLineBreak(tokens[i].text)
      && !AllSpace(tokens[i].text) && !tokens[i].isComment
    ensures |SplitLines(SourceText(tokens))| == 1
    ensures LexerCounts(tokens + [LexToken(false, "\n")], |SplitLines(SourceText(tokens))|) == Counts(|tokens|, 0, 0)
    ensures LexerCounts(tokens, |SplitLines(SourceText(tokens))|) == Counts(|tokens|, 0, 0)
  {
    SourceTextUnbroken(tokens);
    SplitUnbroken(SourceText(tokens));
    TokensOnOneLineCounts(tokens);
    NewlineEndedCounts(tokens);
  }

  lemma NewlineEndedCounts(tokens: seq<LexToken>)
    requires |tokens| >= 1
    requires forall i :: 0 <= i < |tokens| ==>
      tokens[i].text != [] && NoLineBreak(tokens[i].text)
      && !AllSpace(tokens[i].text) && !tokens[i].isComment
    ensures LexerCounts(tokens + [LexToken(false, "\n")], 1) == Counts(|tokens|, 0, 0)
  {
    var s := Slots(tokens);
    SingleLineSlots(tokens);
    SlotsThenNewline(tokens);
    AllOneKind(s, Code);
    LexerCountsShape(tokens + [LexToken(false, "\n")], 1);
    assert multiset(s + [Blank]) == multiset(s) + multiset{Blank};
  }

  /** The `\n` token adds one blank slot at the end. */
  lemma {:induction false} SlotsThenNewline(tokens: seq<LexToken>)
    ensures Slots(tokens + [LexToken(false, "\n")]) == Slots(tokens) + [Blank]
  {
    var nl := LexToken(false, "\n");
    if |tokens| == 0 {
      assert [nl][1..] == [];
      assert LineEnd("\n") == 0;
      assert BreakWidth("\n", 0) == 1;
      assert "\n"[1..] == [];
      assert SplitLines("\n") == [""];
      assert Strip("") == [];
      assert PieceKinds([""], false) == [Blank];
    } else {
      var ts := tokens + [nl];
      assert ts[0] == tokens[0];
      assert ts[1..] == tokens[1..] + [nl];
      SlotsThenNewline(tokens[1..]);
    }
  }

  lemma TokensOnOneLineCounts(tokens: seq<LexToken>)
    requires forall i :: 0 <= i < |tokens| ==>
      tokens[i].text != [] && NoLineBreak(tokens[i].text)
      && !AllSpace(tokens[i].text) && !tokens[i].isComment
    ensures LexerCounts(tokens, 1) == Counts(|tokens|, 0, if |tokens| == 0 then 1 else 0)
  {
    SingleLineSlots(tokens);
    LexerCountsShape(tokens, 1);
    AllOneKind(Slots(tokens), Code);
  }

  lemma {:induction false} SourceTextUnbroken(tokens: seq<LexToken>)
    requires forall i :: 0 <= i < |tokens| ==> NoLineBreak(tokens[i].text)
    ensures NoLineBreak(SourceText(tokens))
    ensures |tokens| >= 1 && tokens[0].text != [] ==> SourceText(tokens) != []
  {
    if |tokens| != 0 {
      SourceTextUnbroken(tokens[1..]);
      var a, b := tokens[0].text, SourceText(tokens[1..]);
      assert forall j :: 0 <= j < |a + b| ==> (a + b)[j] == if j < |a| then a[j] else b[j - |a|];
    }
  }

  lemma {:induction false} SingleLineSlots(tokens: seq<LexToken>)
    requires forall i :: 0 <= i < |tokens| ==>
      tokens[i].text != [] && NoLineBreak(tokens[i].text)
      && !AllSpace(tokens[i].text) && !tokens[i].isComment
    ensures |Slots(tokens)| == |tokens|
    ensures forall i :: 0 <= i < |tokens| ==> Slots(tokens)[i] == Code
  {
    if |tokens| != 0 {
      var t := tokens[0].text;
      SplitUnbroken(t);
      StripEmptyIffAllSpace(t);
      assert PieceKinds([t], false) == [Code];
      SingleLineSlots(tokens[1..]);
    }
  }
}

=== FILE: linecount.dfy ===
/** `count_lines_by_type(content, extension, filename)` of
    `codetok/parser.py`: picks the lexical tier when the extension has a lexer
    and the lexer produced a token stream, and the heuristic tier otherwise. */
module LineCount {
  import opened Wrappers
  import opened Text
  import opened Kinds
  import opened Heuristic
  import opened LexerTier
  import Registry


  /** `count_lines_by_type(content, extension, ...)`. `lexed` is the lexer's
      token stream, or `None` when the lexer library is unavailable or lexing
      raised; either way the call falls back to the heuristic tier. */
  function CountLinesByType(content: string, ext: string, lexed: Option<seq<LexToken>>): (r: Counts) {
    var lines := SplitLines(content);
    if ext in Registry.LexerMapping && lexed.Some? then LexerCounts(lexed.value, |lines|)
    else HeuristicCounts(lines, ext)
  }

  /** Which tier answers, and what that means for the totals: the heuristic
      tier's counts add up to the line count exactly; the lexical tier's add
      up to at least the line count. Either way no count is lost. */
  lemma CountLinesTiers(content: string, ext: string, lexed: Option<seq<LexToken>>)
    ensures var lines := SplitLines(content);
      var c := CountLinesByType(content, ext, lexed);
      && ((ext !in Registry.LexerMapping || lexed.None?) ==> c == HeuristicCounts(lines, ext) && c.code + c.comment + c.blank == |lines|)
      && ((ext in Registry.LexerMapping && lexed.Some?) ==>
            c.code + c.comment + c.blank == if |lines| >= c.code + c.comment then |lines| else c.code + c.comment)
      && c.code + c.comment + c.blank >= |lines|
  {
    var lines := SplitLines(content);
    if ext in Registry.LexerMapping && lexed.Some? {
      LexerCountsShape(lexed.value, |lines|);
    }
  }

  /** For an extension without a lexer the token stream plays no part: the
      counts are the same whether the lexer library is present, absent or
      failing. */
  lemma NoLexerNoDependence(content: string, ext: string, a: Option<seq<LexToken>>, b: Option<seq<LexToken>>)
    requires ext !in Registry.LexerMapping
    ensures CountLinesByType(content, ext, a) == CountLinesByType(content, ext, b)
  {
  }

  /** Empty content has no lines: the heuristic tier reports nothing, and
      the lexical tier reports no blank line and only what the token stream
      itself holds as code or comment. */
  lemma EmptyContentCounts(ext: string, lexed: Option<seq<LexToken>>)
    ensures SplitLines("") == []
    ensures CountLinesByType("", ext, lexed).blank == 0
    ensures (ext !in Registry.LexerMapping || lexed.None?) ==> CountLinesByType("", ext, lexed) == Counts(0, 0, 0)
  {
    if ext in Registry.LexerMapping && lexed.Some? {
      LexerCountsShape(lexed.value, 0);
    }
  }

  /** The markdown example of the test suite: two headers, two lines of
      text and two blank lines, each line ended by a newline. Documentation
      files have no comment prefix, so the headers count as code, giving
      (4, 0, 2) with or without the lexer. */
  lemma MarkdownExample(lexed: Option<seq<LexToken>>)
    ensures CountLinesByType(Terminated(["# Header", "", "This is content.", "", "## Another header", "More content."]), ".md", lexed)
         == Counts(4, 0, 2)
  {
    var lines := ["# Header", "", "This is content.", "", "## Another header", "More content."];
    MarkdownNoLexer();
    MarkdownLines();
    MarkdownCounts();
    CountLinesTiers(Terminated(lines), ".md", lexed);
  }

  /** The unknown-extension example of the test suite: three text lines and
      one blank one. No lexer and no comment prefix, so (3, 0, 1). */
  lemma UnknownExtensionExample(lexed: Option<seq<LexToken>>)
    ensures CountLinesByType(Terminated(["line 1", "line 2", "", "line 4"]), ".unknown", lexed) == Counts(3, 0, 1)
  {
    var lines := ["line 1", "line 2", "", "line 4"];
    UnknownUnregistered();
    UnknownLines();
    UnknownCounts();
    CountLinesTiers(Terminated(lines), ".unknown", lexed);
  }

  /** The example files' lines: printable ASCII, not starting with a space. */
  predicate ExampleLine(l: string) {
    (l == [] || l[0] != ' ') && forall i :: 0 <= i < |l| ==> ' ' <= l[i] <= '~'
  }

  lemma MarkdownLines()
    ensures var lines := ["# Header", "", "This is content.", "", "## Another header", "More content."];
      SplitLines(Terminated(lines)) == lines
  {
    MarkdownPrintable();
    ExampleLines(["# Header", "", "This is content.", "", "## Another header", "More content."]);
  }

  lemma MarkdownPrintable()
    ensures var lines := ["# Header", "", "This is content.", "", "## Another header", "More content."];
      forall k :: 0 <= k < |lines| ==> ExampleLine(lines[k])
  {
  }

  lemma UnknownLines()
    ensures SplitLines(Terminated(["line 1", "line 2", "", "line 4"])) == ["line 1", "line 2", "", "line 4"]
  {
    UnknownPrintable();
    ExampleLines(["line 1", "line 2", "", "line 4"]);
  }

  lemma UnknownPrintable()
    ensures var lines := ["line 1", "line 2", "", "line 4"];
      forall k :: 0 <= k < |lines| ==> ExampleLine(lines[k])
  {
  }

  lemma MarkdownCounts()
    ensures HeuristicCounts(["# Header", "", "This is content.", "", "## Another header", "More content."], ".md")
         == Counts(4, 0, 2)
  {
    MarkdownKinds();
    assert Tally([Code, Blank, Code, Blank, Code, Code]) == Counts(4, 0, 2);
  }

  lemma MarkdownKinds()
    ensures LineKinds(["# Header", "", "This is content.", "", "## Another header", "More content."], ".md")
         == [Code, Blank, Code, Blank, Code, Code]
  {
    DocumentationHasNoPrefixes(".md");
    MarkdownPrintable();
    ExampleKinds(["# Header", "", "This is content.", "", "## Another header", "More content."], ".md");
  }

  lemma UnknownCounts()
    ensures HeuristicCounts(["line 1", "line 2", "", "line 4"], ".unknown") == Counts(3, 0, 1)
  {
    var lines := ["line 1", "line 2", "", "line 4"];
    UnknownUnregistered();
    UnknownPrintable();
    ExampleKinds(lines, ".unknown");
    assert LineKinds(lines, ".unknown") == [Code, Code, Blank, Code];
  }

  lemma ExampleLines(lines: seq<string>)
    requires forall k :: 0 <= k < |lines| ==> ExampleLine(lines[k])
    ensures SplitLines(Terminated(lines)) == lines
  {
    forall k | 0 <= k < |lines|
      ensures NoLineBreak(lines[k])
    {
    }
    SplitTerminated(lines);
  }

  lemma ExampleKinds(lines: seq<string>, ext: string)
    requires CommentPrefixes(ext) == {}
    requires forall k :: 0 <= k < |lines| ==> ExampleLine(lines[k])
    ensures forall k :: 0 <= k < |lines| ==>
      LineKinds(lines, ext)[k] == if lines[k] == [] then Blank else Code
  {
    PlainLines(lines, ext);
    forall k | 0 <= k < |lines| && lines[k] != []
      ensures !AllSpace(lines[k])
    {
      assert !IsSpace(lines[k][0]);
    }
  }

  lemma MarkdownNoLexer()
    ensures ".md" !in Registry.LexerMapping
  {
    Registry.DocumentationNotCode(".md");
    Registry.LexerKeysAreCode();
  }

  lemma UnknownUnregistered()
    ensures ".unknown" !in Registry.LexerMapping
    ensures CommentPrefixes(".unknown") == {}
  {
  }
}

=== FILE: records.dfy ===
/** The per-file record of `codetok/parser.py` (`FileStats`) and
    `process_file`, which fills it from a file's content. Reading the file,
    its size on disk, the token counter and the lexer are outside the model:
    their outcomes arrive as parameters. */
module Records {
  import opened Wrappers
  import opened Text
  import opened Kinds
  import opened LexerTier
  import opened LineCount
  import Registry

  /** A path, as the sequence of its components (`Path.parts`). */
  type Path = seq<string>

  /** `FileStats`: the statistics of one file. */
  datatype FileStats = FileStats(
    path: Path,
    extension: string,
    linesTotal: nat,
    linesCode: nat,
    linesComments: nat,
    linesBlank: nat,
    tokens: nat,
    sizeBytes: nat)

  // ---------------------------------------------------------------------
  // Path.suffix

  /** `Path.name`: the last component, or the empty string. */
  function Name(p: Path): (r: string) {
    if |p| == 0 then "" else p[|p| - 1]
  }

  /** `s.rfind(c)`: the index of the last `c` in `s`, or -1. */
  function RFind(s: string, c: char): (i: int)
    ensures -1 <= i < |s|
    ensures i >= 0 ==> s[i] == c
    ensures forall j :: i < j < |s| ==> s[j] != c
  {
    if |s| == 0 then -1
    else if s[|s| - 1] == c then |s| - 1
    else RFind(s[..|s| - 1], c)
  }

  /** `Path.suffix`: from the last dot of the name to its end, provided that
      dot is neither the name's first nor its last character; otherwise the
      empty string. So `.gitignore` and `name.` have no suffix. */
  function Suffix(p: Path): (s: string)
    ensures s == [] || (|s| >= 2 && s[0] == '.' && forall j :: 1 <= j < |s| ==> s[j] != '.')
    ensures |s| < |Name(p)| || s == []
    ensures s == Name(p)[|Name(p)| - |s|..]
  {
    var name := Name(p);
    var i := RFind(name, '.');
    if 0 < i < |name| - 1 then name[i..] else ""
  }

  /** A file named `stem` followed by a dot and a dot-free, non-empty
      extension has exactly that suffix, whatever directory it is in, as long
      as the stem is not empty. */
  lemma SuffixOfName(dir: Path, stem: string, ext: string)
    requires stem != [] && ext != []
    requires forall j :: 0 <= j < |ext| ==> ext[j] != '.'
    ensures Suffix(dir + [stem + "." + ext]) == "." + ext
  {
    var name := stem + "." + ext;
    assert Name(dir + [name]) == name;
    RFindPast(stem, ext);
    assert name[|stem|..] == "." + ext;
  }

  lemma RFindPast(stem: string, ext: string)
    requires forall j :: 0 <= j < |ext| ==> ext[j] != '.'
    ensures RFind(stem + "." + ext, '.') == |stem|
  {
    var name := stem + "." + ext;
    assert name[|stem|] == '.';
  }

  /** A name whose only dot is its first character, such as `.gitignore`,
      has no suffix. */
  lemma DotfileHasNoSuffix(dir: Path, rest: string)
    requires forall j :: 0 <= j < |rest| ==> rest[j] != '.'
    ensures Suffix(dir + ["." + rest]) == ""
  {
    var name := "." + rest;
    assert Name(dir + [name]) == name;
  }

  // ---------------------------------------------------------------------
  // process_file

  /** What reading the file gives: its content, its size in bytes and the
      token count (`None` when the tokenizer is unavailable or raises), or an
      operating-system error. */
  datatype FileRead =
    | Read(content: string, sizeBytes: nat, tokenCount: Option<nat>)
    | OsError

  /** `process_file(file_path)`. `lexed` is the lexer's token stream for the
      content, as `count_lines_by_type` takes it. */
  function ProcessFile(path: Path, read: FileRead, lexed: Option<seq<LexToken>>): (r: FileStats)
    ensures r.path == path && r.extension == Lower(Suffix(path))
    ensures read.OsError? ==>
      r.linesTotal == r.linesCode == r.linesComments == r.linesBlank == r.tokens == r.sizeBytes == 0
    ensures read.Read? ==> r.linesTotal == |SplitLines(read.content)| && r.sizeBytes == read.sizeBytes
    ensures read.Read? ==>
      var c := CountLinesByType(read.content, r.extension, lexed);
      r.linesCode == c.code && r.linesComments == c.comment && r.linesBlank == c.blank
    ensures read.Read? ==> r.tokens == (if read.tokenCount.Some? then read.tokenCount.value else 0)
  {
    var ext := Lower(Suffix(path));
    match read
    case OsError => FileStats(path, ext, 0, 0, 0, 0, 0, 0)
    case Read(content, size, tokenCount) =>
      var c := CountLinesByType(content, ext, lexed);
      FileStats(path, ext, |SplitLines(content)|, c.code, c.comment, c.blank,
                tokenCount.GetOr(0), size)
  }

  /** The record's line counts account for every line of the file: exactly
      when the heuristic tier counted them, at least when the lexical tier
      did; and a file that could not be read reports nothing. */
  lemma ProcessFileCoversLines(path: Path, read: FileRead, lexed: Option<seq<LexToken>>)
    ensures var r := ProcessFile(path, read, lexed);
      r.linesCode + r.linesComments + r.linesBlank >= r.linesTotal
    ensures var r := ProcessFile(path, read, lexed);
      (Lower(Suffix(path)) !in Registry.LexerMapping || lexed.None?) ==>
        r.linesCode + r.linesComments + r.linesBlank == r.linesTotal
  {
    if read.Read? {
      CountLinesTiers(read.content, Lower(Suffix(path)), lexed);
    }
  }

  /** The extension in the record is in lower case: it never holds an ASCII
      capital, so `.PY` and `.py` are counted together. */
  lemma ExtensionLowerCase(path: Path, read: FileRead, lexed: Option<seq<LexToken>>)
    ensures var e := ProcessFile(path, read, lexed).extension;
      forall j :: 0 <= j < |e| ==> !('A' <= e[j] <= 'Z')
  {
    LowerCases(Suffix(path));
  }

  /** A missing token counter and one that raised both leave the count at 0;
      the other fields do not depend on it. */
  lemma TokensDefaultToZero(path: Path, content: string, size: nat, lexed: Option<seq<LexToken>>, n: nat)
    ensures ProcessFile(path, Read(content, size, None), lexed).tokens == 0
    ensures ProcessFile(path, Read(content, size, None), lexed).(tokens := n)
         == ProcessFile(path, Read(content, size, Some(n)), lexed)
  {
  }
}

=== FILE: registry.dfy ===
/** The extension registries of `codetok/parser.py`: three disjoint category
    maps from a lower-case extension to a display name, and the map from code
    extensions to the lexer that reads them. */
module Registry {

  const CodeExtensions: map<string, string> := map[
    ".py" := "Python",
    ".js" := "JavaScript",
    ".jsx" := "React JSX",
    ".ts" := "TypeScript",
    ".tsx" := "TypeScript JSX",
    ".html" := "HTML",
    ".htm" := "HTML",
    ".css" := "CSS",
    ".scss" := "SCSS",
    ".java" := "Java",
    ".cpp" := "C++",
    ".c" := "C",
    ".h" := "Header",
    ".cs" := "C#",
    ".php" := "PHP",
    ".rb" := "Ruby",
    ".go" := "Go",
    ".rs" := "Rust",
    ".swift" := "Swift",
    ".kt" := "Kotlin",
    ".sql" := "SQL",
    ".sh" := "Shell Script"
  ]

  const DocumentationExtensions: map<string, string> := map[
    ".md" := "Markdown",
    ".txt" := "Plain Text",
    ".rst" := "reStructuredText",
    ".adoc" := "AsciiDoc",
    ".tex" := "LaTeX"
  ]

  const ConfigExtensions: map<string, string> := map[
    ".json" := "JSON",
    ".yaml" := "YAML",
    ".yml" := "YAML",
    ".toml" := "TOML",
    ".ini" := "INI",
    ".xml" := "XML",
    ".env" := "Environment",
    ".gitignore" := "Git Ignore",
    ".dockerignore" := "Docker Ignore"
  ]

  /** Extension to the name of the lexer the lexical tier runs on it. */
  const LexerMapping: map<string, string> := map[
    ".py" := "python",
    ".js" := "javascript",
    ".jsx" := "javascript",
    ".ts" := "typescript",
    ".tsx" := "typescript",
    ".html" := "html",
    ".htm" := "html",
    ".css" := "css",
    ".scss" := "scss",
    ".java" := "java",
    ".cpp" := "cpp",
    ".c" := "c",
    ".h" := "c",
    ".cs" := "csharp",
    ".php" := "php",
    ".rb" := "ruby",
    ".go" := "go",
    ".rs" := "rust",
    ".swift" := "swift",
    ".kt" := "kotlin",
    ".sql" := "sql",
    ".sh" := "bash"
  ]

  /** Every extension the tool analyses: the keys of the three category
      maps. */
  function AllExtensions(): (r: set<string>) {
    CodeExtensions.Keys + DocumentationExtensions.Keys + ConfigExtensions.Keys
  }

  /** The analysed extensions are exactly the registered ones, and since the
      category maps are disjoint, each is counted once. */
  lemma AllExtensionsUnion()
    ensures forall e :: e in AllExtensions() <==>
      e in CodeExtensions || e in DocumentationExtensions || e in ConfigExtensions
    ensures |AllExtensions()| == |CodeExtensions| + |DocumentationExtensions| + |ConfigExtensions|
  {
    RegistriesDisjoint();
  }

  /** No extension belongs to two categories. */
  lemma RegistriesDisjoint()
    ensures CodeExtensions.Keys !! DocumentationExtensions.Keys
    ensures CodeExtensions.Keys !! ConfigExtensions.Keys
    ensures DocumentationExtensions.Keys !! ConfigExtensions.Keys
  {
    forall e | e in DocumentationExtensions
      ensures e !in CodeExtensions && e !in ConfigExtensions
    {
      DocumentationNotElsewhere(e);
    }
    forall e | e in ConfigExtensions
      ensures e !in CodeExtensions
    {
      ConfigNotCode(e);
    }
  }

  lemma DocumentationKeys()
    ensures DocumentationExtensions.Keys == {".md", ".txt", ".rst", ".adoc", ".tex"}
  {
  }

  lemma ConfigKeys()
    ensures ConfigExtensions.Keys
         == {".json", ".yaml", ".yml", ".toml", ".ini", ".xml", ".env", ".gitignore", ".dockerignore"}
  {
  }

  lemma DocumentationNotElsewhere(e: string)
    requires e in DocumentationExtensions
    ensures e !in CodeExtensions && e !in ConfigExtensions
  {
    DocumentationNotCode(e);
    DocumentationNotConfig(e);
  }

  lemma DocumentationNotCode(e: string)
    requires e in DocumentationExtensions
    ensures e !in CodeExtensions
  {
    DocumentationKeys();
  }

  lemma DocumentationNotConfig(e: string)
    requires e in DocumentationExtensions
    ensures e !in ConfigExtensions
  {
    DocumentationKeys();
  }

  lemma ConfigNotCode(e: string)
    requires e in ConfigExtensions
    ensures e !in CodeExtensions
  {
    ConfigKeys();
    if e in {".json", ".yaml", ".yml", ".toml", ".ini"} {
      DataFormatsNotCode(e);
    } else {
      OtherConfigNotCode(e);
    }
  }

  lemma DataFormatsNotCode(e: string)
    requires e in {".json", ".yaml", ".yml", ".toml", ".ini"}
    ensures e !in CodeExtensions
  {
  }

  lemma OtherConfigNotCode(e: string)
    requires e in {".xml", ".env", ".gitignore", ".dockerignore"}
    ensures e !in CodeExtensions
  {
  }

  /** Exactly the code extensions have a lexer. */
  lemma LexerKeysAreCode()
    ensures LexerMapping.Keys == CodeExtensions.Keys
  {
  }

  /** The registry holds more than ten extensions: five documentation and
      nine configuration ones alone. */
  lemma RegistrySizes()
    ensures |DocumentationExtensions| == 5 && |ConfigExtensions| == 9
    ensures |AllExtensions()| > 10
  {
    DocumentationSize();
    ConfigSize();
    AllExtensionsUnion();
  }

  lemma DocumentationSize()
    ensures |DocumentationExtensions| == 5
  {
    DocumentationKeys();
  }

  lemma ConfigSize()
    ensures |ConfigExtensions| == 9
  {
    ConfigKeys();
    ConfigKeyCount();
  }

  lemma ConfigKeyCount()
    ensures |{".json", ".yaml", ".yml", ".toml", ".ini", ".xml", ".env", ".gitignore", ".dockerignore"}| == 9
  {
  }

  /** The empty extension of a file without a suffix is not registered. */
  lemma EmptyExtensionUnregistered()
    ensures "" !in AllExtensions()
  {
    EmptyNotCode();
    EmptyNotDocumentation();
    EmptyNotConfig();
  }

  lemma EmptyNotCode()
    ensures "" !in CodeExtensions
  {
  }

  lemma EmptyNotDocumentation()
    ensures "" !in DocumentationExtensions
  {
  }

  lemma EmptyNotConfig()
    ensures "" !in ConfigExtensions
  {
  }

  /** No display name is empty, so Python's `a or b or c` over the three
      lookups picks the first registry that knows the extension. */
  lemma DisplayNamesNonEmpty()
    ensures forall e :: e in CodeExtensions ==> CodeExtensions[e] != ""
    ensures forall e :: e in DocumentationExtensions ==> DocumentationExtensions[e] != ""
    ensures forall e :: e in ConfigExtensions ==> ConfigExtensions[e] != ""
  {
    CodeNamesNonEmpty();
    DocumentationNamesNonEmpty();
    ConfigNamesNonEmpty();
  }

  lemma CodeNamesNonEmpty()
    ensures "" !in CodeExtensions.Values
  {
  }

  lemma DocumentationNamesNonEmpty()
    ensures "" !in DocumentationExtensions.Values
  {
  }

  lemma ConfigNamesNonEmpty()
    ensures "" !in ConfigExtensions.Values
  {
  }
}

=== FILE: text.dfy ===
/** The Python string primitives the line classifier and the file record rely
    on, written out: `str.splitlines()`, `str.strip()`, `str.startswith` and
    `str.lower()` (restricted to ASCII letters). */
module Text {

  /** The characters Python's `str.splitlines` treats as line boundaries.
      The pair `\r\n` is a single boundary made of two of them. */
  predicate IsLineBreak(c: char) {
    c == '\n' || c == '\r' || c == '\U{0b}' || c == '\U{0c}'
    || c == '\U{1c}' || c == '\U{1d}' || c == '\U{1e}'
    || c == '\U{85}' || c == '\U{2028}' || c == '\U{2029}'
  }

  /** The characters Python's `str.isspace` accepts, which are the ones
      `str.strip()` with no argument removes. */
  predicate IsSpace(c: char) {
    c == ' ' || c == '\t' || IsLineBreak(c) || c == '\U{1f}'
    || c == '\U{a0}' || c == '\U{1680}'
    || ('\U{2000}' <= c <= '\U{200a}')
    || c == '\U{202f}' || c == '\U{205f}' || c == '\U{3000}'
  }

  predicate NoLineBreak(s: string) {
    forall i :: 0 <= i < |s| ==> !IsLineBreak(s[i])
  }

  predicate AllUnbroken(lines: seq<string>) {
    forall k :: 0 <= k < |lines| ==> NoLineBreak(lines[k])
  }

  predicate AllSpace(s: string) {
    forall i :: 0 <= i < |s| ==> IsSpace(s[i])
  }

  /** Index of the first line boundary in `s`, or `|s|` when there is none. */
  function LineEnd(s: string): (i: nat)
    ensures i <= |s|
  {
    if s == [] || IsLineBreak(s[0]) then 0 else 1 + LineEnd(s[1..])
  }

  /** What `LineEnd` finds: no boundary before it, and a boundary at it
      unless it is the end of the text. */
  lemma {:induction false} LineEndShape(s: string)
    ensures var i := LineEnd(s);
      NoLineBreak(s[..i]) && (i < |s| ==> IsLineBreak(s[i]))
  {
    if s != [] && !IsLineBreak(s[0]) {
      LineEndShape(s[1..]);
      var i := LineEnd(s);
      assert s[..i] == [s[0]] + s[1..][..i - 1];
    }
  }

  /** Width of the boundary that starts at `s[i]`: two for `\r\n`, else one. */
  function BreakWidth(s: string, i: nat): (w: nat)
    requires i < |s|
    ensures 1 <= w <= 2 && i + w <= |s|
  {
    if s[i] == '\r' && i + 1 < |s| && s[i + 1] == '\n' then 2 else 1
  }

  /** Python's `s.splitlines()`: the pieces between line boundaries, the
      boundaries themselves dropped, and no empty trailing piece after a final
      boundary. */
  function SplitLines(s: string): (lines: seq<string>)
    ensures s == [] <==> lines == []
    ensures |lines| <= |s|
    decreases |s|
  {
    if s == [] then []
    else
      var i := LineEnd(s);
      if i == |s| then [s]
      else [s[..i]] + SplitLines(s[i + BreakWidth(s, i)..])
  }

  /** No line that `splitlines()` returns holds a line boundary. */
  lemma {:induction false} SplitLinesNoBreaks(s: string)
    ensures AllUnbroken(SplitLines(s))
    decreases |s|
  {
    if s != [] {
      var i := LineEnd(s);
      LineEndShape(s);
      if i < |s| {
        var rest := s[i + BreakWidth(s, i)..];
        SplitLinesNoBreaks(rest);
        assert SplitLines(s) == [s[..i]] + SplitLines(rest);
      } else {
        assert s[..i] == s;
      }
    }
  }

  /** The lines, each followed by `\n`: the text a file holding exactly these
      lines contains. */
  function Terminated(lines: seq<string>): (r: string) {
    if lines == [] then [] else lines[0] + "\n" + Terminated(lines[1..])
  }

  /** Splitting undoes terminating: a file written as these lines, each ended
      by a newline, splits back into exactly these lines. */
  lemma {:induction false} SplitTerminated(lines: seq<string>)
    requires forall k :: 0 <= k < |lines| ==> NoLineBreak(lines[k])
    ensures SplitLines(Terminated(lines)) == lines
  {
    if lines != [] {
      var s := Terminated(lines);
      var l := lines[0];
      var rest := Terminated(lines[1..]);
      assert s == l + ("\n" + rest);
      LineEndOfPrefix(l, "\n" + rest);
      assert LineEnd(s) == |l|;
      assert BreakWidth(s, |l|) == 1;
      assert s[|l| + 1..] == rest;
      assert s[..|l|] == l;
      SplitTerminated(lines[1..]);
    }
  }

  /** A non-empty text with no line boundary is a single line: the last
      line of a file need not be terminated. */
  lemma SplitUnbroken(t: string)
    requires t != [] && NoLineBreak(t)
    ensures SplitLines(t) == [t]
  {
    LineEndUnbroken(t);
  }

  lemma {:induction false} LineEndUnbroken(t: string)
    requires NoLineBreak(t)
    ensures LineEnd(t) == |t|
  {
    if t != [] {
      LineEndUnbroken(t[1..]);
    }
  }

  /** One line boundary as it can appear in a text: any one boundary
      character, or the pair `\r\n`. */
  predicate IsBoundary(b: string) {
    (|b| == 1 && IsLineBreak(b[0])) || b == "\r\n"
  }

  /** Splitting takes off the first line at its boundary, whichever boundary
      it is: `\r\n` counts once, and a lone `\r` ends a line as long as no
      `\n` follows it (else the two form one `\r\n`). */
  lemma SplitAtBoundary(l: string, b: string, rest: string)
    requires NoLineBreak(l) && IsBoundary(b)
    requires b == "\r" ==> rest == [] || rest[0] != '\n'
    ensures SplitLines(l + b + rest) == [l] + SplitLines(rest)
  {
    var s := l + b + rest;
    assert s == l + (b + rest);
    LineEndOfPrefix(l, b + rest);
    assert s[|l|] == b[0];
    if b == "\r\n" {
      assert s[|l| + 1] == '\n';
      assert BreakWidth(s, |l|) == 2;
    } else {
      assert |l| + 1 < |s| ==> s[|l| + 1] == rest[0];
      assert BreakWidth(s, |l|) == 1;
    }
    assert s[|l| + |b|..] == rest;
    assert s[..|l|] == l;
  }

  /** A file whose last line lacks the final newline splits into all its
      lines, the unterminated one included. */
  lemma {:induction false} SplitUnterminated(lines: seq<string>, last: string)
    requires AllUnbroken(lines)
    requires last != [] && NoLineBreak(last)
    ensures SplitLines(Terminated(lines) + last) == lines + [last]
  {
    if lines == [] {
      assert Terminated(lines) + last == last;
      SplitUnbroken(last);
    } else {
      var rest := Terminated(lines[1..]) + last;
      assert Terminated(lines) + last == lines[0] + "\n" + rest;
      SplitAtBoundary(lines[0], "\n", rest);
      SplitUnterminated(lines[1..], last);
      assert lines == [lines[0]] + lines[1..];
    }
  }

  lemma {:induction false} LineEndOfPrefix(l: string, t: string)
    requires NoLineBreak(l)
    requires t != [] && IsLineBreak(t[0])
    ensures LineEnd(l + t) == |l|
  {
    if l != [] {
      assert (l + t)[1..] == l[1..] + t;
      LineEndOfPrefix(l[1..], t);
    }
  }

  function TrimLeft(s: string): (t: string)
    ensures |t| <= |s|
  {
    if s != [] && IsSpace(s[0]) then TrimLeft(s[1..]) else s
  }

  function TrimRight(s: string): (t: string)
    ensures |t| <= |s|
  {
    if s != [] && IsSpace(s[|s| - 1]) then TrimRight(s[..|s| - 1]) else s
  }

  /** Python's `s.strip()`: leading and trailing whitespace removed. */
  function Strip(s: string): (r: string) {
    TrimRight(TrimLeft(s))
  }

  /** `TrimLeft` removes a whitespace prefix, and exactly the longest one. */
  lemma {:induction false} TrimLeftShape(s: string)
    ensures var t := TrimLeft(s);
      t == s[|s| - |t|..] && AllSpace(s[..|s| - |t|]) && (t == [] || !IsSpace(t[0]))
  {
    if s != [] && IsSpace(s[0]) {
      TrimLeftShape(s[1..]);
      var t := TrimLeft(s[1..]);
      assert s[1..][..|s| - 1 - |t|] == s[1..|s| - |t|];
    }
  }

  /** `TrimRight` removes a whitespace suffix, and exactly the longest one. */
  lemma {:induction false} TrimRightShape(s: string)
    ensures var t := TrimRight(s);
      t == s[..|t|] && AllSpace(s[|t|..]) && (t == [] || !IsSpace(t[|t| - 1]))
  {
    if s != [] && IsSpace(s[|s| - 1]) {
      var p := s[..|s| - 1];
      TrimRightShape(p);
      var t := TrimRight(p);
      assert s[|t|..] == p[|t|..] + [s[|s| - 1]];
    }
  }

  /** A stripped line is empty exactly when every character of the line is
      whitespace. */
  lemma StripEmptyIffAllSpace(s: string)
    ensures Strip(s) == [] <==> AllSpace(s)
  {
    var l := TrimLeft(s);
    TrimLeftShape(s);
    TrimRightShape(l);
    if Strip(s) == [] {
      assert AllSpace(l[0..]);
      assert l == [];
      assert s[..|s|] == s;
    }
  }

  predicate StartsWith(s: string, prefix: string) {
    |prefix| <= |s| && s[..|prefix|] == prefix
  }

  function LowerChar(c: char): (r: char) {
    if 'A' <= c <= 'Z' then (c as int + 32) as char else c
  }

  /** `s.lower()` restricted to ASCII letters. */
  function Lower(s: string): (t: string)
    ensures |t| == |s|
    ensures forall i :: 0 <= i < |s| ==> t[i] == LowerChar(s[i])
  {
    seq(|s|, i requires 0 <= i < |s| => LowerChar(s[i]))
  }

  /** What lowering does: no ASCII capital is left, each capital becomes the
      letter 32 code points on, every other character stays, and lowering
      again changes nothing. */
  lemma LowerCases(s: string)
    ensures forall j :: 0 <= j < |Lower(s)| ==> !('A' <= Lower(s)[j] <= 'Z')
    ensures forall j :: 0 <= j < |s| && !('A' <= s[j] <= 'Z') ==> Lower(s)[j] == s[j]
    ensures forall j :: 0 <= j < |s| && 'A' <= s[j] <= 'Z' ==> Lower(s)[j] as int == s[j] as int + 32
    ensures Lower(Lower(s)) == Lower(s)
  {
  }
}

=== FILE: utils.dfy ===
/** The helpers of `codetok/utils.py`: thousands grouping of counts,
    human-readable byte sizes, and the excluded-directory test. */
module Utils {

  // ---------------------------------------------------------------------
  // Decimal digits

  predicate IsDigit(c: char) {
    '0' <= c <= '9'
  }

  predicate AllDigits(s: string) {
    forall i :: 0 <= i < |s| ==> IsDigit(s[i])
  }

  function DigitChar(d: nat): (c: char)
    requires d < 10
    ensures IsDigit(c)
  {
    ('0' as int + d) as char
  }

  /** The value of one character read as a decimal digit; anything else
      reads as 0. */
  function DigitValue(c: char): (r: nat) {
    if IsDigit(c) then c as int - '0' as int else 0
  }

  /** `str(n)` for a natural number: its decimal digits, without leading
      zeros. */
  function Decimal(n: nat): (s: string)
    ensures |s| >= 1 && AllDigits(s)
    ensures s[0] == '0' ==> n == 0
  {
    if n < 10 then [DigitChar(n)] else Decimal(n / 10) + [DigitChar(n % 10)]
  }

  /** Reads a string of digits as a number, most significant first. The
      reference reader for the formatted forms below. */
  function ReadDecimal(s: string): (r: nat) {
    if |s| == 0 then 0 else ReadDecimal(s[..|s| - 1]) * 10 + DigitValue(s[|s| - 1])
  }

  lemma {:induction false} ReadDecimalOfDecimal(n: nat)
    ensures ReadDecimal(Decimal(n)) == n
  {
    var s := Decimal(n);
    if n >= 10 {
      ReadDecimalOfDecimal(n / 10);
      assert s[..|s| - 1] == Decimal(n / 10);
    }
  }

  // ---------------------------------------------------------------------
  // format_number

  /** Commas between groups of three digits, counted from the right. */
  function Group(ds: string): (r: string)
    ensures |ds| >= 1 ==> |r| == |ds| + (|ds| - 1) / 3
  {
    if |ds| <= 3 then ds else Group(ds[..|ds| - 3]) + "," + ds[|ds| - 3..]
  }

  /** `f"{num:,}"`: the decimal form with a comma before every group of three
      digits counted from the right, and a leading `-` for negatives. */
  function FormatNumber(num: int): (r: string) {
    if num < 0 then "-" + Group(Decimal(-num)) else Group(Decimal(num))
  }

  /** The text with every comma removed. */
  function RemoveCommas(s: string): (r: string) {
    if |s| == 0 then []
    else RemoveCommas(s[..|s| - 1]) + (if s[|s| - 1] == ',' then [] else [s[|s| - 1]])
  }

  lemma {:induction false} RemoveCommasAppend(a: string, b: string)
    ensures RemoveCommas(a + b) == RemoveCommas(a) + RemoveCommas(b)
    decreases |b|
  {
    if |b| != 0 {
      var b' := b[..|b| - 1];
      assert (a + b)[..|a + b| - 1] == a + b';
      RemoveCommasAppend(a, b');
    } else {
      assert a + b == a;
    }
  }

  lemma {:induction false} RemoveCommasOfDigits(s: string)
    requires AllDigits(s)
    ensures RemoveCommas(s) == s
  {
    if |s| != 0 {
      RemoveCommasOfDigits(s[..|s| - 1]);
      assert s == s[..|s| - 1] + [s[|s| - 1]];
    }
  }

  /** Grouping only inserts commas: removing them gives the digits back. */
  lemma {:induction false} GroupRemoveCommas(ds: string)
    requires AllDigits(ds)
    ensures RemoveCommas(Group(ds)) == ds
    decreases |ds|
  {
    if |ds| <= 3 {
      RemoveCommasOfDigits(ds);
    } else {
      var hi, lo := ds[..|ds| - 3], ds[|ds| - 3..];
      GroupRemoveCommas(hi);
      RemoveCommasAppend(Group(hi) + ",", lo);
      RemoveCommasAppend(Group(hi), ",");
      assert RemoveCommas(",") == [];
      RemoveCommasOfDigits(lo);
      assert hi + lo == ds;
    }
  }

  /** Where the commas are: exactly at the positions whose distance from the
      end is a multiple of four, so every group after the first has three
      digits; every other position holds a digit. */
  predicate CommaLayout(r: string) {
    forall i :: 0 <= i < |r| ==> (r[i] == ',' <==> (|r| - i) % 4 == 0) && (r[i] != ',' ==> IsDigit(r[i]))
  }

  lemma {:induction false} GroupCommaPositions(ds: string)
    requires |ds| >= 1 && AllDigits(ds)
    ensures CommaLayout(Group(ds))
    decreases |ds|
  {
    var r := Group(ds);
    if |ds| > 3 {
      var hi, lo := ds[..|ds| - 3], ds[|ds| - 3..];
      var g := Group(hi);
      GroupCommaPositions(hi);
      assert r == g + "," + lo;
      forall i | 0 <= i < |r|
        ensures (r[i] == ',' <==> (|r| - i) % 4 == 0) && (r[i] != ',' ==> IsDigit(r[i]))
      {
        if i < |g| {
          assert r[i] == g[i];
          assert |r| - i == (|g| - i) + 4;
          assert (|r| - i) % 4 == (|g| - i) % 4;
        } else if i > |g| {
          assert r[i] == lo[i - |g| - 1] == ds[|ds| - 3 + (i - |g| - 1)];
          assert IsDigit(r[i]);
          assert 1 <= |r| - i <= 3;
        } else {
          assert r[i] == ',';
          assert |r| - i == 4;
        }
      }
    }
  }

  /** The reference reader for `format_number`'s output: an optional `-`,
      then digits with commas ignored. */
  function ReadNumber(s: string): (r: int) {
    if |s| > 0 && s[0] == '-' then -(ReadDecimal(RemoveCommas(s[1..])) as int)
    else ReadDecimal(RemoveCommas(s))
  }

  /** Formatting loses nothing: reading the grouped text back gives the
      number, negative numbers included. */
  lemma FormatNumberRoundTrip(num: int)
    ensures ReadNumber(FormatNumber(num)) == num
  {
    if num < 0 {
      GroupedReadsBack(-num);
      var g := Group(Decimal(-num));
      assert ("-" + g)[1..] == g;
    } else {
      GroupedReadsBack(num);
    }
  }

  lemma GroupedReadsBack(n: nat)
    ensures ReadDecimal(RemoveCommas(Group(Decimal(n)))) == n
    ensures Group(Decimal(n))[0] != '-'
  {
    GroupRemoveCommas(Decimal(n));
    ReadDecimalOfDecimal(n);
    GroupCommaPositions(Decimal(n));
  }

  /** Numbers below a thousand are printed without a comma. */
  lemma SmallNumbersUngrouped(num: nat)
    requires num < 1000
    ensures FormatNumber(num) == Decimal(num)
  {
    DecimalLength(num);
  }

  lemma {:induction false} DecimalLength(n: nat)
    ensures n < 1000 ==> |Decimal(n)| <= 3
    ensures n >= 1000 ==> |Decimal(n)| >= 4
  {
    if n >= 10 {
      DecimalLength(n / 10);
    }
  }

  // ---------------------------------------------------------------------
  // format_size

  datatype SizeUnit = B | KB | MB | GB

  const KiB: nat := 1024

  /** The unit `format_size` picks: the first of B, KB, MB whose next power
      of 1024 the size stays below, else GB. */
  function UnitOf(bytes: int): (r: SizeUnit) {
    if bytes < KiB then B
    else if bytes < KiB * KiB then KB
    else if bytes < KiB * KiB * KiB then MB
    else GB
  }

  function Scale(u: SizeUnit): (r: nat) {
    match u
    case B => 1
    case KB => KiB
    case MB => KiB * KiB
    case GB => KiB * KiB * KiB
  }

  function UnitName(u: SizeUnit): (r: string) {
    match u
    case B => "B"
    case KB => "KB"
    case MB => "MB"
    case GB => "GB"
  }

  /** The unit grows with the size. */
  lemma UnitMonotone(a: int, b: int)
    requires a <= b
    ensures Scale(UnitOf(a)) <= Scale(UnitOf(b))
  {
  }

  /** Below GB, the scaled size lies in [1, 1024): the unit is the largest
      whose scale does not exceed the size. Sizes under 1 byte stay in B. */
  lemma UnitRange(bytes: int)
    ensures UnitOf(bytes) != B ==> Scale(UnitOf(bytes)) <= bytes
    ensures UnitOf(bytes) != GB ==> bytes < Scale(UnitOf(bytes)) * KiB
  {
  }

  /** `bytes / scale` printed with one decimal place: the size in tenths of
      the unit, rounded to nearest with ties to even, as `.1f` does on the
      exact quotient. */
  function Tenths(bytes: nat, scale: nat): (r: nat)
    requires scale >= 1
  {
    var q, r := (10 * bytes) / scale, (10 * bytes) % scale;
    if 2 * r > scale || (2 * r == scale && q % 2 == 1) then q + 1 else q
  }

  /** The rounded value is the nearest number of tenths: within half a tenth
      of the exact quotient. */
  lemma TenthsNearest(bytes: nat, scale: nat)
    requires scale >= 1
    ensures 2 * (Tenths(bytes, scale) * scale - 10 * bytes) <= scale
    ensures 2 * (10 * bytes - Tenths(bytes, scale) * scale) <= scale
  {
  }

  /** `format_size(bytes_size)`. Below 1024 the size is printed as an
      integer; otherwise with one decimal place. */
  function FormatSize(bytes: nat): (s: string) {
    var u := UnitOf(bytes);
    if u == B then Decimal(bytes) + " B"
    else
      var t := Tenths(bytes, Scale(u));
      Decimal(t / 10) + "." + [DigitChar(t % 10)] + " " + UnitName(u)
  }

  /** What the printed size says: the unit `UnitOf` picks, and a number that
      reads back as the size in whole bytes (below 1024) or as the rounded
      tenths of that unit. */
  lemma FormatSizeReads(bytes: nat)
    ensures var s := FormatSize(bytes); var u := UnitOf(bytes);
      (u == B ==> s == Decimal(bytes) + " B" && ReadDecimal(Decimal(bytes)) == bytes)
      && (u != B ==> |s| >= 5 && s[|s| - 2..] == UnitName(u))
  {
    ReadDecimalOfDecimal(bytes);
  }

  /** Rounding happens after the unit is chosen, so a size just below the
      next unit prints as 1024.0 of the smaller one. */
  lemma RoundsUpWithinUnit()
    ensures UnitOf(KiB * KiB - 1) == KB
    ensures Tenths(KiB * KiB - 1, KiB) == 10240
  {
  }

  // ---------------------------------------------------------------------
  // should_exclude_directory

  /** `should_exclude_directory(dir_path, exclude_dirs)`: some component of
      the path is one of the excluded names. */
  predicate ShouldExcludeDirectory(parts: seq<string>, excludeDirs: set<string>) {
    exists e :: e in excludeDirs && e in parts
  }

  /** Read from the path's side: the path is excluded exactly when one of its
      components is an excluded name. */
  lemma ExcludeByComponent(parts: seq<string>, excludeDirs: set<string>)
    ensures ShouldExcludeDirectory(parts, excludeDirs)
        <==> exists i :: 0 <= i < |parts| && parts[i] in excludeDirs
  {
    if ShouldExcludeDirectory(parts, excludeDirs) {
      var e :| e in excludeDirs && e in parts;
      var i :| 0 <= i < |parts| && parts[i] == e;
    }
  }

  /** Nothing is excluded by an empty exclude set. */
  lemma NoExclusionsExcludeNothing(parts: seq<string>)
    ensures !ShouldExcludeDirectory(parts, {})
  {
  }

  /** Excluding more names never lets a path back in. */
  lemma ExcludeMonotoneInNames(parts: seq<string>, a: set<string>, b: set<string>)
    requires a <= b && ShouldExcludeDirectory(parts, a)
    ensures ShouldExcludeDirectory(parts, b)
  {
  }

  /** Once a directory is excluded, so is everything below it. */
  lemma ExcludeInherited(parts: seq<string>, below: seq<string>, excludeDirs: set<string>)
    requires ShouldExcludeDirectory(parts, excludeDirs)
    ensures ShouldExcludeDirectory(parts + below, excludeDirs)
  {
    var e :| e in excludeDirs && e in parts;
    assert e in parts + below;
  }
}

=== FILE: wrappers.dfy ===
/** Failure-carrying values used where the source returns `None` or raises. */
module Wrappers {

  datatype Option<+T> = None | Some(value: T) {
    function GetOr(default: T): (r: T) {
      match this
      case Some(v) => v
      case None => default
    }
  }

  datatype Result<+T, +E> = Success(value: T) | Failure(error: E)
}
